=== FILE: README.md ===
# Bolton bin-collection proxy — a Dafny model

`index.js` is a small Node HTTP service. It answers `GET /bin-collection?uprn=…` with the
next collection date of each of Bolton Council's four bins. To do that it makes three calls:

1. It opens a session with the council's form service (`/api/citizen`) and takes the
   `Authorization` response header.
2. It scrapes a CSRF token from the portal page.
3. It POSTs a date-window query (today to today + 56 days).

It then reads the HTML fragment in the JSON reply and turns every bin section into an entry:

- the bin is chosen by keywords in the section's bold label;
- the date is the first `day MonthName year` in the section's first list item, rewritten
  as `dd/MM/yyyy`;
- a relative label such as "tomorrow" is added;
- the image URL has its white space removed.

The model lifts all of this decision logic out of the HTTPS and cheerio callbacks as pure
functions over explicit inputs:

- every network exchange is an input that is either a transport error or the reply;
- the cheerio selection is a sequence of `Block` records;
- the wall clock is a millisecond count `nowMs` and a calendar day `today`.

| module | file | what it holds |
|---|---|---|
| `Wrappers` | wrappers.dfy | `Option` and `Result` |
| `Text` | text.dfy | ECMAScript white space, `trim`, the `/\s+/g` strip, decimal digits |
| `Calendar` | calendar.dfy | proleptic Gregorian day numbers, `addDays`, `dd/MM/yyyy`, the relative label |
| `DateMatch` | date_match.dfy | the regex `/\d{1,2}\s+\w+\s+\d{4}/` and `parse(…, 'dd MMMM yyyy')` |
| `Extract` | extract.dfy | classification, one section, and the fold that builds `binInfo` |
| `Session` | session.dfy | the CSRF meta-tag regex and `getAuthToken` |
| `Service` | service.dfy | the request window, `callService`'s checks, and the HTTP handler |

Points where the model pins down behaviour that the code's wording leaves implicit:

- **Date match.** At any start index the regex `/\d{1,2}\s+\w+\s+\d{4}/` has at most one
  match, because neighbouring character classes are disjoint. `FindDate` is therefore the
  leftmost match, and it is proved sound and complete against a declarative shape.
- **Parsing.** `parse(…, 'dd MMMM yyyy')` accepts exactly one space in each gap, as the
  literal space token demands. The model reads the month only as its full English name with
  a capital first letter (date-fns also takes other letter cases and shorter forms; see
  "Left out"), and it requires a year of at least 1. A match that fails this becomes an
  invalid date. `format` then throws "Invalid time value", and the whole response fails
  with "Error parsing response: Invalid time value". The section is not skipped.
- **Relative day count.** The count is `floor((midnight of the date − now) / 86 400 000)`.
  This is floor division, not truncation toward zero. As a result, a collection due today
  reads "1 days ago" at any moment after midnight (`Calendar.SameDayLabel`).
- **CSRF token.** The regex takes the capture at the leftmost index where the whole pattern
  matches. The capture is never empty, so `!match[1]` never fires on its own.
- **Header values.** The CSRF pattern `[^"]+` also accepts characters Node refuses in a
  header value, such as a line feed. `https.request` then throws inside the credentials
  callback. The `catch` at index.js:62-64 reports the error, so the request fails with
  "Failed to get auth token: Invalid character in header content [\"X-CSRF-TOKEN\"]"
  (`Service.LineFeedToken`).
- **Empty result.** A successful `binInfo` always holds `state`. The 404 branch of the
  handler therefore cannot be reached from the bin route, and a reply with no recognised
  section answers 200 with `{"state":"ok"}` rather than 404.

## Model

| member | source | states |
|---|---|---|
| Text.Trim | index.js:153 | the result neither starts nor ends with white space, is a contiguous slice of the input obtained by dropping white space only at the two ends, and is empty exactly when the input is all white space |
| Text.TrimIdempotent | index.js:161 | trimming a trimmed string changes nothing |
| Text.Strip | index.js:157 | the stripped URL holds no white space, keeps every non-space character of the input, adds no character, and leaves a space-free URL unchanged |
| Text.StripIdempotent | index.js:156-158 | stripping twice equals stripping once, and a URL is left unchanged exactly when it has no white space |
| Text.NatToStringRoundTrip | index.js:186-187 | the decimal rendering of a count reads back as the same count |
| Text.NumeralUnique | index.js:186-187 | a digit string without a leading zero is exactly the rendering of the number it stands for, so every count has one decimal form |
| Text.Contains | index.js:166-172 | `includes` holds exactly when the keyword occurs at some index of the label |
| Text.Pad | index.js:180 | the zero-padded field of `dd`, `MM` and `yyyy` is all digits, has the field width or the number's own length if longer, and reads back as the number |
| Calendar.AddDays | index.js:91 | adding n days gives a valid date whose day number is exactly n greater |
| Calendar.AddDaysYear | index.js:91 | adding fewer than 365 days moves the year forward by at most one |
| Calendar.MonthNumber | index.js:180 | a word names month m exactly when it is m's full English name, and a word naming no month gives nothing |
| Calendar.Format | index.js:180 | for years 1 to 9999 the text has 10 characters with `/` at positions 2 and 5 |
| Calendar.FormatRoundTrip | index.js:180 | reading `dd/MM/yyyy` back gives the formatted date |
| Calendar.FormatInjective | index.js:180 | distinct dates are formatted differently |
| Calendar.RelativeDaysOffset | index.js:181 | t ms after midnight of day `today`, the count for date d is the day-number difference, less one when t > 0 |
| Calendar.RelativeLabel | index.js:184-187 | the label is "today" exactly for 0, "tomorrow" exactly for 1, ends in " days ago" exactly for negative counts and starts with "in " exactly for counts above 1 |
| Calendar.RelativeLabelRoundTrip | index.js:184-187 | the count is recoverable from its label, so distinct counts get distinct labels |
| Calendar.ParseRelativeSound | index.js:184-187 | any text that reads back as a count is that count's label: "today", "tomorrow", "in N days" for N of at least 2 and "N days ago" for N of at least 1, with N in plain decimal without leading zeros |
| Calendar.SameDayLabel | index.js:181-186 | a date evaluated at any moment after its own midnight is labelled "1 days ago" |
| DateMatch.MatchAt | index.js:178 | the match at one start index has the regex's shape, and any shape found at that index is the one returned |
| DateMatch.ShapeUnique | index.js:178 | two matches at the same start index are the same |
| DateMatch.FindDate | index.js:178 | the returned match has the regex's shape with no match at any earlier index, and nothing is returned exactly when no index matches |
| DateMatch.ParseMatch | index.js:180 | success gives a date of year 1 to 9999 that the matched text spells; failure is "Invalid time value" and happens exactly when the gaps are not single spaces or no valid date is spelled |
| DateMatch.SpelledIsUnique | index.js:180 | matched text spells at most one date |
| DateMatch.LineDate | index.js:178-180 | no date exactly when nothing matches; a parse error exactly when the leftmost match is unparsable; otherwise the date the leftmost match spells |
| DateMatch.WrittenFound | index.js:178 | in a line written as "… d MonthName yyyy" after digit-free text, the leftmost match is exactly the written date |
| DateMatch.WrittenRoundTrip | index.js:178-180 | such a line parses back to the written date, and formatting that date reads back as the same date |
| Extract.MentionsByCategory | index.js:166-174 | each bin is mentioned exactly when the label contains one of its keywords |
| Extract.Classify | index.js:164-176 | a label mentioning no keyword gives no bin; otherwise the bin given is mentioned and no bin earlier in the order grey, beige, burgundy, green is |
| Extract.ClassifyExamples | index.js:166-176 | "grey and green" classifies as grey and "Grey" as nothing (the match is case-sensitive) |
| Extract.CleanImage | index.js:154-158 | an absent image stays absent; a present one loses all white space, keeps every non-space character, adds no character, never grows, and is unchanged when it has none |
| Extract.CleanImageIdempotent | index.js:156-158 | cleaning a cleaned image changes nothing |
| Extract.CleanImageConcat | index.js:156-158 | cleaning a concatenation gives the concatenation of the cleaned pieces, so the kept characters stay in order |
| Extract.CleanImageChar | index.js:156-158 | a single character is removed exactly when it is white space |
| Extract.ProcessBlock | index.js:153-194 | a section yields nothing exactly when its trimmed label or first item is empty, no bin is named or no date is found; it fails with the parse-error message exactly when the leftmost date is unparsable; otherwise it yields the named bin with a `dd/MM/yyyy` date that reads back as the spelled date, the canonical relative label of that date's day count, and the cleaned image |
| Extract.ExtractSchedule | index.js:149-202 | a successful result holds `state: 'ok'` and only bin properties with clean entries; a failure carries the parse-error message |
| Extract.KeyCount | index.js:149 | a successful result has between 1 and 5 properties, never 0 |
| Extract.FailsIffSomeBlockFails | index.js:152-202 | the schedule fails exactly when some section fails, so a failure never comes with a partial schedule |
| Extract.SectionPresent | index.js:189-193 | a bin is present in the result exactly when some section yields it |
| Extract.LastSectionWins | index.js:189-193 | a bin's entry comes from the last section that yields that bin |
| Extract.SkipBlock | index.js:163 | appending a section that yields nothing leaves the schedule unchanged |
| Extract.CollectionExample | index.js:177-193 | a grey-bin section dated "Wednesday 14 January 2026", read on 10 January 2026, yields "14/01/2026" with "in 4 days" at midnight and "in 3 days" later that day |
| Session.TokenFrom | index.js:54 | the result is the leftmost index at or after the start where the pattern matches, with its capture, and nothing is returned exactly when no such index exists |
| Session.CsrfToken | index.js:54-60 | the token is the capture at the leftmost index where the pattern matches; it is non-empty and quote-free; nothing is returned exactly when the page matches nowhere |
| Session.TokenUnique | index.js:54 | at one index the pattern allows only one capture |
| Session.CsrfTokenOfTag | index.js:54-60 | a page holding the meta tag with a non-empty, quote-free token, and no earlier tag prefix, yields exactly that token |
| Session.PortalIgnoredWithoutHeader | index.js:31-34 | without a usable Authorization header the outcome does not depend on the portal page |
| Session.GetAuthToken | index.js:25-73 | success exactly when the citizen call returns a non-empty Authorization header and the portal page holds a token, with both handed on; a transport error of either call is passed on as it is, a missing or empty header fails with "No Authorization header from /api/citizen", and a page without a token fails with "Could not extract CSRF token from portal" |
| Service.MakeRequest | index.js:85-105 | the request carries the negotiated token and header and the given uprn; for years 1 to 9998 both window dates have 10 characters |
| Service.WindowSpan | index.js:89-91 | the window's start reads back as today and its end as a valid date exactly 56 day numbers later |
| Service.StatusMessageRoundTrip | index.js:135 | the status code can be read back from the status-failure message |
| Service.HeaderError | index.js:107-126 | nothing is refused exactly when both credentials hold only characters Node accepts in a header value (tab, 0x20-0x7E, 0x80-0xFF); a refused CSRF token is reported as `X-CSRF-TOKEN` whatever the Authorization header holds |
| Service.Credentials | index.js:58-64 | the credentials are handed on exactly when authentication succeeds and both values are valid header values; an auth failure carries "Failed to get auth token: " and its message, and a refused token or header carries "Failed to get auth token: Invalid character in header content" with the header's name |
| Service.Outgoing | index.js:85-126 | a request is sent exactly when the credentials are accepted; it carries the caller's uprn, the scraped token and the Authorization header, both valid header values; otherwise the credentials' failure is returned |
| Service.LineFeedToken | index.js:54-64 | a token holding a line feed is scraped, but the call fails with "Failed to get auth token: Invalid character in header content [\"X-CSRF-TOKEN\"]" whatever the API would answer |
| Service.CallService | index.js:77-213 | success exactly when the credentials are accepted, the reply is 2xx with a non-empty `collection_dates`, and extraction succeeds; it is then the extracted schedule; an auth failure carries "Failed to get auth token: " and its message, a credential Node refuses as a header value "Failed to get auth token: Invalid character in header content" with the header's name, a transport error "Problem with request: " and its message, a non-2xx reply the status prefix, an unparsable body "Error parsing response: " and its message, and a missing or empty `collection_dates` "No collection data found in response" |
| Service.NonSuccessStatus | index.js:134-137 | a non-2xx reply fails with a message carrying its own status code, whatever its body |
| Service.Respond | index.js:227-244 | 500 exactly for an error or a truthy `error` property; 404 exactly for an absent or empty result; 200 otherwise, with the result's properties over `state: 'ok'`; the body is `{state: 'error', message}` with the `{error}` object as message for an error, with the `binInfo.error` value for a truthy one, and with "No bin information found" for the 404 |
| Service.Handle | index.js:215-248 | GET `/health` gives 200; 400 with the plain-text message is given exactly when neither route matches |
| Service.HealthIndependent | index.js:220-224 | the health route answers 200 whatever the upstream services would reply |
| Service.RespondOutcome | index.js:227-244 | a failure is answered 500 with its message and a well-formed schedule 200 with exactly that schedule; the 404 and `binInfo.error` branches are never taken |
| Service.BinRouteOutcome | index.js:226-244 | the bin route answers 200 with exactly the extracted schedule or 500 with the failure message, and never 404 |
| Service.BinRouteQuery | index.js:226-227 | the bin route's API call asks for the caller's uprn over a window whose start reads back as today and whose end is 56 day numbers later; when no call can be sent the route answers 500 with the reason |

## Left out

- Network I/O: the three `https.request` calls, response streaming, the `error` events and
  `server.listen`. Each exchange is an input: a transport error message or the reply.
- The cheerio selection (`div[style*="overflow:auto"]`, `strong`, `img`, the first `li`).
  It is a foreign HTML library, so the selected sections are the input `Block` records.
  `strong` is the label's concatenated text.
- `JSON.parse`, `JSON.stringify` and `Buffer.byteLength`. These are library calls. The reply
  is either a parse error with its message, or an already-parsed object with an optional
  `collection_dates`. A non-string `collection_dates` is not modelled.
- Fixed header tables, host names and API paths: constant data with no decisions in them.
- URL parsing of the incoming request. `Handle` receives the pathname and the first `uprn`
  value already extracted.
- `Calendar.MonthNumber`: date-fns also accepts month names in any letter case, three-letter
  abbreviations and one-letter forms. Only the exact full English names are modelled.
- `DateMatch.ParseMatch`: date-fns also reads month names in any letter case, three-letter
  abbreviations and one-letter forms (see `Calendar.MonthNumber`). Only exact full English
  names are modelled. The gaps are read as date-fns reads them: exactly one ASCII space each.
- Time zones and daylight saving time. Dates are UTC calendar days.
- The separate `new Date()` calls at index.js:180-181 are taken as one instant, `nowMs`, for
  every section of a response; they are not fresh per section. The `new Date()` of
  index.js:89 is passed to `Service.Outgoing` as a calendar day `today`.
- The API's reply is an input of `Service.CallService` on its own: the model does not tie it
  to the request `Service.Outgoing` builds, so `CallService` takes neither the uprn nor
  `today`. `Service.BinRouteQuery` states what the bin route asks for.
- Node's other header checks: the remaining request headers are constants that pass them.
- Service.MakeRequest: window lengths are stated only for years 1 to 9998, because
  date-fns prints years from 10000 on, and era years from 10000 BC back, with more than
  four digits.
- Years outside 1 to 9999: `format` would print them with more digits or as era years, and
  the regex cannot produce them.
- The test file index.test.js. It exercises a postcode-and-address variant of the service
  that index.js does not contain.
- A callback that itself throws inside the `try` of index.js:139-202 would report a second
  outcome. The model yields exactly one outcome per request.
- The sections in `Block` are processed in document order. cheerio's selection order is
  assumed to be that order.

=== FILE: calendar.dfy ===
/** Proleptic Gregorian calendar arithmetic: the date handling the service takes
    from date-fns (`parse`, `format`, `addDays`) and the relative-day label of
    index.js, on explicit integer inputs instead of `new Date()`. */
module Calendar {
  import opened Wrappers
  import opened Text

  /** A calendar date; `month` is 1-based. */
  datatype Date = Date(year: int, month: int, day: int)

  const MsPerDay: int := 1000 * 60 * 60 * 24

  /** Day number of 1970-01-01 counted from 0001-01-01. */
  const EpochOffset: int := 719162

  predicate IsLeapYear(y: int) {
    y % 4 == 0 && (y % 100 != 0 || y % 400 == 0)
  }

  function DaysInMonth(y: int, m: int): int
    requires 1 <= m <= 12
  {
    if m == 2 then (if IsLeapYear(y) then 29 else 28)
    else if m == 4 || m == 6 || m == 9 || m == 11 then 30
    else 31
  }

  predicate ValidDate(d: Date) {
    1 <= d.month <= 12 && 1 <= d.day <= DaysInMonth(d.year, d.month)
  }

  function YearLength(y: int): int {
    if IsLeapYear(y) then 366 else 365
  }

  /** Days from 0001-01-01 to January 1st of year `y` (floor division keeps it
      right for years before 1). */
  function DaysBeforeYear(y: int): int {
    365 * (y - 1) + (y - 1) / 4 - (y - 1) / 100 + (y - 1) / 400
  }

  /** Days from January 1st to the first day of month `m` of year `y`. */
  function DaysBeforeMonth(y: int, m: int): int
    requires 1 <= m <= 12
  {
    var common := [0, 31, 59, 90, 120, 151, 181, 212, 243, 273, 304, 334];
    common[m - 1] + (if m > 2 && IsLeapYear(y) then 1 else 0)
  }

  /** Days since 1970-01-01, the day count under JavaScript's millisecond clock. */
  function DayNumber(d: Date): int
    requires 1 <= d.month <= 12
  {
    DaysBeforeYear(d.year) + DaysBeforeMonth(d.year, d.month) + d.day - 1 - EpochOffset
  }

  // ---------------------------------------------------------------------------
  // Day-number facts
  // ---------------------------------------------------------------------------

  lemma YearStep(y: int)
    ensures DaysBeforeYear(y + 1) == DaysBeforeYear(y) + YearLength(y)
  {
    assert y / 4 - (y - 1) / 4 == (if y % 4 == 0 then 1 else 0);
    assert y / 100 - (y - 1) / 100 == (if y % 100 == 0 then 1 else 0);
    assert y / 400 - (y - 1) / 400 == (if y % 400 == 0 then 1 else 0);
  }

  /** Year starts grow by at least 365 days per year. */
  lemma {:induction false} YearStartsGrow(y1: int, y2: int)
    requires y1 <= y2
    ensures DaysBeforeYear(y2) - DaysBeforeYear(y1) >= 365 * (y2 - y1)
    decreases y2 - y1
  {
    if y1 < y2 {
      YearStep(y2 - 1);
      YearStartsGrow(y1, y2 - 1);
    }
  }

  /** A valid date lies within its own year's day numbers. */
  lemma WithinYear(d: Date)
    requires ValidDate(d)
    ensures DaysBeforeYear(d.year) <= DayNumber(d) + EpochOffset < DaysBeforeYear(d.year) + YearLength(d.year)
  {
    YearStep(d.year);
  }

  /** The day number of a valid date grows with the date: comparing years, then
      months, then days agrees with comparing day numbers. */
  lemma DayNumberOrder(a: Date, b: Date)
    requires ValidDate(a) && ValidDate(b)
    requires a.year < b.year || (a.year == b.year && (a.month < b.month || (a.month == b.month && a.day < b.day)))
    ensures DayNumber(a) < DayNumber(b)
  {
    WithinYear(a);
    WithinYear(b);
    if a.year < b.year {
      YearStep(a.year);
      YearStartsGrow(a.year + 1, b.year);
    } else if a.month < b.month {
      MonthStartsGrow(a.year, a.month, b.month);
    }
  }

  lemma MonthStartsGrow(y: int, m1: int, m2: int)
    requires 1 <= m1 < m2 <= 12
    ensures DaysBeforeMonth(y, m1) + DaysInMonth(y, m1) <= DaysBeforeMonth(y, m2)
  {
  }

  /** Distinct valid dates have distinct day numbers. */
  lemma DayNumberInjective(a: Date, b: Date)
    requires ValidDate(a) && ValidDate(b)
    requires DayNumber(a) == DayNumber(b)
    ensures a == b
  {
    if a.year < b.year || (a.year == b.year && (a.month < b.month || (a.month == b.month && a.day < b.day))) {
      DayNumberOrder(a, b);
    } else if b.year < a.year || (a.year == b.year && (b.month < a.month || (a.month == b.month && b.day < a.day))) {
      DayNumberOrder(b, a);
    }
  }

  // ---------------------------------------------------------------------------
  // Adding days (`addDays`)
  // ---------------------------------------------------------------------------

  lemma MonthStep(y: int, m: int)
    requires 1 <= m < 12
    ensures DaysBeforeMonth(y, m + 1) == DaysBeforeMonth(y, m) + DaysInMonth(y, m)
  {
  }

  /** The following calendar day: it is valid and has the next day number. */
  function NextDay(d: Date): (r: Date)
    requires ValidDate(d)
    ensures ValidDate(r)
    ensures DayNumber(r) == DayNumber(d) + 1
    ensures d.year <= r.year <= d.year + 1
  {
    if d.day < DaysInMonth(d.year, d.month) then Date(d.year, d.month, d.day + 1)
    else if d.month < 12 then
      MonthStep(d.year, d.month);
      Date(d.year, d.month + 1, 1)
    else
      YearStep(d.year);
      Date(d.year + 1, 1, 1)
  }

  /** `addDays(d, n)`: the valid date exactly `n` day numbers after `d`. */
  function AddDays(d: Date, n: nat): (r: Date)
    requires ValidDate(d)
    ensures ValidDate(r)
    ensures DayNumber(r) == DayNumber(d) + n
    decreases n
  {
    if n == 0 then d else AddDays(NextDay(d), n - 1)
  }

  /** Fewer than 365 days ahead lands at most one year later. */
  lemma AddDaysYear(d: Date, n: nat)
    requires ValidDate(d) && n < 365
    ensures d.year <= AddDays(d, n).year <= d.year + 1
  {
    var r := AddDays(d, n);
    WithinYear(d);
    WithinYear(r);
    YearStep(d.year);
    YearStep(r.year);
    YearSpan(d.year, r.year, DayNumber(d) + EpochOffset, n);
  }

  /** Day counts `a` in year `y1` and `a + n` in year `y2`, with `n` below 365,
      put `y2` in the same or the next year. */
  lemma YearSpan(y1: int, y2: int, a: int, n: int)
    requires 0 <= n < 365
    requires DaysBeforeYear(y1) <= a < DaysBeforeYear(y1 + 1)
    requires DaysBeforeYear(y2) <= a + n < DaysBeforeYear(y2 + 1)
    ensures y1 <= y2 <= y1 + 1
  {
    YearOrder(y1, y2 + 1);
    YearStep(y1 + 1);
    YearOrder(y2, y1 + 2);
  }

  /** Year starts are ordered like the years. */
  lemma YearOrder(y1: int, y2: int)
    requires DaysBeforeYear(y1) < DaysBeforeYear(y2)
    ensures y1 < y2
  {
    if y2 <= y1 {
      YearStartsGrow(y2, y1);
    }
  }

  // ---------------------------------------------------------------------------
  // Month names (the `MMMM` token, English locale)
  // ---------------------------------------------------------------------------

  const MonthNames: seq<string> := [
    "January", "February", "March", "April", "May", "June",
    "July", "August", "September", "October", "November", "December"
  ]

  function MonthName(m: int): string
    requires 1 <= m <= 12
  {
    MonthNames[m - 1]
  }

  /** Distinct months have distinct names (their first three letters already differ). */
  lemma MonthNameInjective(a: int, b: int)
    requires 1 <= a <= 12 && 1 <= b <= 12
    requires MonthName(a) == MonthName(b)
    ensures a == b
  {
    var p := MonthName(a);
    assert p[0] == MonthName(b)[0] && p[1] == MonthName(b)[1] && p[2] == MonthName(b)[2];
  }

  function MonthFrom(w: string, i: nat): (r: Option<int>)
    requires i <= 12
    ensures r.Some? ==> i < r.value <= 12 && MonthName(r.value) == w
    ensures r.None? ==> forall m :: i < m <= 12 ==> MonthName(m) != w
    decreases 12 - i
  {
    if i == 12 then None
    else if MonthNames[i] == w then Some(i + 1)
    else MonthFrom(w, i + 1)
  }

  /** The month a full English month name denotes, if any (exact, case-sensitive). */
  function MonthNumber(w: string): (r: Option<int>)
    ensures r.Some? ==> 1 <= r.value <= 12 && MonthName(r.value) == w
    ensures r.None? <==> forall m :: 1 <= m <= 12 ==> MonthName(m) != w
  {
    MonthFrom(w, 0)
  }

  // ---------------------------------------------------------------------------
  // Formatting as `dd/MM/yyyy`
  // ---------------------------------------------------------------------------

  /** The year date-fns prints for `yyyy`: years before 1 are shown as era years
      (year 0 is 1 BC). */
  function EraYear(y: int): nat {
    if y > 0 then y else 1 - y
  }

  /** `format(d, 'dd/MM/yyyy')`: two-digit day, two-digit month, year of at least
      four digits, separated by slashes. */
  function Format(d: Date): (r: string)
    requires ValidDate(d)
    ensures 1 <= d.year <= 9999 ==> |r| == 10 && r[2] == '/' && r[5] == '/'
  {
    PadWidth(d.day, 2);
    PadWidth(d.month, 2);
    PadWidth(if 1 <= d.year <= 9999 then d.year else 0, 4);
    Pad(d.day, 2) + "/" + Pad(d.month, 2) + "/" + Pad(EraYear(d.year), 4)
  }

  /** Reads a `dd/MM/yyyy` string back into its day, month and year fields. */
  function ParseFormatted(f: string): Option<Date> {
    if |f| == 10 && f[2] == '/' && f[5] == '/'
       && AllDigits(f[..2]) && AllDigits(f[3..5]) && AllDigits(f[6..])
    then Some(Date(ParseDigits(f[6..]), ParseDigits(f[3..5]), ParseDigits(f[..2])))
    else None
  }

  /** Formatting loses nothing for four-digit years: the fields read back are
      the date's own. */
  lemma FormatRoundTrip(d: Date)
    requires ValidDate(d) && 1 <= d.year <= 9999
    ensures ParseFormatted(Format(d)) == Some(d)
  {
    PadWidth(d.day, 2);
    PadWidth(d.month, 2);
    PadWidth(d.year, 4);
    var f := Format(d);
    assert f[..2] == Pad(d.day, 2);
    assert f[3..5] == Pad(d.month, 2);
    assert f[6..] == Pad(d.year, 4);
  }

  /** Two valid dates with four-digit years format alike only if they are equal. */
  lemma FormatInjective(a: Date, b: Date)
    requires ValidDate(a) && 1 <= a.year <= 9999
    requires ValidDate(b) && 1 <= b.year <= 9999
    requires Format(a) == Format(b)
    ensures a == b
  {
    FormatRoundTrip(a);
    FormatRoundTrip(b);
  }

  // ---------------------------------------------------------------------------
  // Relative days (index.js:181-187)
  // ---------------------------------------------------------------------------

  /** Milliseconds of the date's midnight on the same clock as `nowMs`. */
  function MidnightMs(d: Date): int
    requires 1 <= d.month <= 12
  {
    DayNumber(d) * MsPerDay
  }

  /** `Math.floor((parse(date) - new Date()) / 86400000)` with integer
      milliseconds; Dafny's `/` by a positive divisor rounds down. */
  function RelativeDays(d: Date, nowMs: int): int
    requires 1 <= d.month <= 12
  {
    (MidnightMs(d) - nowMs) / MsPerDay
  }

  lemma DivideExact(q: int, r: int)
    requires 0 <= r < MsPerDay
    ensures (q * MsPerDay + r) / MsPerDay == q
  {
  }

  /** Evaluated `t` milliseconds after midnight of `today`, a date `D` calendar
      days ahead is `D` days away only at midnight itself and `D - 1` days away
      for the rest of the day. */
  lemma {:induction false} RelativeDaysOffset(d: Date, today: Date, t: int)
    requires ValidDate(d) && ValidDate(today)
    requires 0 <= t < MsPerDay
    ensures RelativeDays(d, MidnightMs(today) + t)
            == DayNumber(d) - DayNumber(today) - (if t == 0 then 0 else 1)
  {
    var n := DayNumber(d) - DayNumber(today);
    assert MidnightMs(d) - (MidnightMs(today) + t) == n * MsPerDay - t;
    if t == 0 {
      DivideExact(n, 0);
    } else {
      assert n * MsPerDay - t == (n - 1) * MsPerDay + (MsPerDay - t);
      DivideExact(n - 1, MsPerDay - t);
    }
  }

  /** The label index.js attaches to a day offset: a total and disjoint case
      split on the sign and size of `n`. */
  function RelativeLabel(n: int): (r: string)
    ensures n == 0 <==> r == "today"
    ensures n == 1 <==> r == "tomorrow"
    ensures n < 0 <==> EndsWith(r, " days ago")
    ensures n > 1 <==> StartsWith(r, "in ")
  {
    if n == 0 then
      assert "today"[..3][0] == 't';
      "today"
    else if n == 1 then
      assert "tomorrow"[..3][0] == 't';
      "tomorrow"
    else if n < 0 then
      var r := NatToString(-n) + " days ago";
      assert IsDigit(r[0]);
      r
    else
      var r := "in " + NatToString(n) + " days";
      assert r[|r| - 1] == 's';
      r
  }

  /** Reads a relative label back into its day offset. Counts are written as
      `String(n)` writes them, without leading zeros; "today" and "tomorrow"
      are the only forms for 0 and 1, and a past offset is at least one day. */
  function ParseRelative(text: string): Option<int> {
    if text == "today" then Some(0)
    else if text == "tomorrow" then Some(1)
    else if EndsWith(text, " days ago") && |text| > 9 && Numeral(text[..|text| - 9])
            && ParseDigits(text[..|text| - 9]) >= 1 then
      var magnitude: int := ParseDigits(text[..|text| - 9]);
      Some(-magnitude)
    else if StartsWith(text, "in ") && EndsWith(text, " days") && |text| > 8
            && Numeral(text[3..|text| - 5]) && ParseDigits(text[3..|text| - 5]) >= 2 then
      Some(ParseDigits(text[3..|text| - 5]))
    else None
  }

  /** Every offset's label reads back as that offset, so distinct offsets get
      distinct labels. */
  lemma RelativeLabelRoundTrip(n: int)
    ensures ParseRelative(RelativeLabel(n)) == Some(n)
  {
    var r := RelativeLabel(n);
    if n < 0 {
      assert r[..|r| - 9] == NatToString(-n);
      NatToStringRoundTrip(-n);
    } else if n > 1 {
      assert r[3..|r| - 5] == NatToString(n);
      NatToStringRoundTrip(n);
    }
  }

  /** Every text that reads back as an offset is that offset's label: the
      label is the only way to write the offset, with its count in plain
      decimal. */
  lemma ParseRelativeSound(text: string, n: int)
    requires ParseRelative(text) == Some(n)
    ensures text == RelativeLabel(n)
  {
    if text == "today" || text == "tomorrow" {
    } else if EndsWith(text, " days ago") && |text| > 9 && Numeral(text[..|text| - 9])
              && ParseDigits(text[..|text| - 9]) >= 1 {
      var digits := text[..|text| - 9];
      NumeralUnique(digits);
      assert text == digits + " days ago";
    } else {
      var digits := text[3..|text| - 5];
      NumeralUnique(digits);
      assert text == "in " + digits + " days";
    }
  }

  /** A collection due on the current day, seen any time after midnight, is
      reported as "1 days ago" rather than "today". */
  lemma SameDayLabel(d: Date, t: int)
    requires ValidDate(d) && 0 < t < MsPerDay
    ensures RelativeLabel(RelativeDays(d, MidnightMs(d) + t)) == "1 days ago"
  {
    RelativeDaysOffset(d, d, t);
    assert NatToString(1) == "1";
  }
}

=== FILE: date_match.dfy ===
/** The date inside a collection line: the regex search
    `firstDate.match(/\d{1,2}\s+\w+\s+\d{4}/)` and the parse of the matched text
    as `dd MMMM yyyy` (index.js:178-180). */
module DateMatch {
  import opened Wrappers
  import opened Text
  import opened Calendar

  /** The message date-fns raises when asked to format an invalid date. */
  const InvalidTimeValue: string := "Invalid time value"

  datatype CharClass = Digit | Space | Word

  predicate InClass(c: char, k: CharClass) {
    match k
    case Digit => IsDigit(c)
    case Space => IsSpace(c)
    case Word => IsWordChar(c)
  }

  /** Every character of `s[lo..hi]` is in class `k`. */
  ghost predicate AllIn(s: string, lo: int, hi: int, k: CharClass) {
    0 <= lo <= hi <= |s| && forall j {:trigger InClass(s[j], k)} :: lo <= j < hi ==> InClass(s[j], k)
  }

  /** One way of reading `s` from `start` as day digits, a white-space gap, a
      word, a second gap and four year digits. */
  datatype Split = Split(start: nat, dayLen: nat, gap1: nat, wordLen: nat, gap2: nat) {
    function DayEnd(): nat { start + dayLen }
    function WordStart(): nat { start + dayLen + gap1 }
    function WordEnd(): nat { start + dayLen + gap1 + wordLen }
    function YearStart(): nat { start + dayLen + gap1 + wordLen + gap2 }
    function End(): nat { start + dayLen + gap1 + wordLen + gap2 + 4 }
  }

  /** `s[m.start..m.End()]` is matched by `\d{1,2}\s+\w+\s+\d{4}` along `m`. */
  ghost predicate ShapeAt(s: string, m: Split) {
    && 1 <= m.dayLen <= 2 && m.gap1 >= 1 && m.wordLen >= 1 && m.gap2 >= 1
    && m.End() <= |s|
    && AllIn(s, m.start, m.DayEnd(), Digit)
    && AllIn(s, m.DayEnd(), m.WordStart(), Space)
    && AllIn(s, m.WordStart(), m.WordEnd(), Word)
    && AllIn(s, m.WordEnd(), m.YearStart(), Space)
    && AllIn(s, m.YearStart(), m.End(), Digit)
  }

  /** No match of the pattern starts at index `i`. */
  ghost predicate NoMatchAt(s: string, i: int) {
    forall m: Split :: m.start == i ==> !ShapeAt(s, m)
  }

  /** Length of the longest run of class-`k` characters starting at `p`. */
  function Span(s: string, p: nat, k: CharClass): (n: nat)
    requires p <= |s|
    ensures AllIn(s, p, p + n, k)
    ensures p + n == |s| || !InClass(s[p + n], k)
    decreases |s| - p
  {
    if p < |s| && InClass(s[p], k) then 1 + Span(s, p + 1, k) else 0
  }

  /** A run that is followed by a character outside its class is the longest one. */
  lemma SpanExact(s: string, p: nat, k: CharClass, n: nat)
    requires AllIn(s, p, p + n, k)
    requires p + n < |s| && !InClass(s[p + n], k)
    ensures Span(s, p, k) == n
  {
  }

  /** Length of the day digits `\d{1,2}` the matcher accepts at `i`: two digits
      when two are followed by white space, one when one is, otherwise none (the
      next part `\s+` cannot start on a digit, so no shorter choice helps). */
  function DayLength(s: string, i: nat): (n: nat)
    requires i <= |s|
    ensures n <= 2
    ensures n > 0 ==> i + n < |s| && AllIn(s, i, i + n, Digit) && IsSpace(s[i + n])
  {
    if i + 2 < |s| && IsDigit(s[i]) && IsDigit(s[i + 1]) && IsSpace(s[i + 2]) then 2
    else if i + 1 < |s| && IsDigit(s[i]) && IsSpace(s[i + 1]) then 1
    else 0
  }

  /** Four year digits `\d{4}` at `y`. */
  predicate YearDigits(s: string, y: nat) {
    y + 4 <= |s| && IsDigit(s[y]) && IsDigit(s[y + 1]) && IsDigit(s[y + 2]) && IsDigit(s[y + 3])
  }

  lemma YearDigitsAllIn(s: string, y: nat)
    ensures YearDigits(s, y) <==> AllIn(s, y, y + 4, Digit)
  {
    if AllIn(s, y, y + 4, Digit) {
      assert InClass(s[y], Digit) && InClass(s[y + 1], Digit);
      assert InClass(s[y + 2], Digit) && InClass(s[y + 3], Digit);
    }
  }

  lemma WordNotSpace(c: char)
    requires IsWordChar(c)
    ensures !IsSpace(c)
  {
  }

  lemma SpaceNotWord(c: char)
    requires IsSpace(c)
    ensures !IsWordChar(c) && !IsDigit(c)
  {
  }

  lemma DigitNotSpace(c: char)
    requires IsDigit(c)
    ensures !IsSpace(c) && IsWordChar(c)
  {
  }

  /** The only split a match at `i` can have: the day digits `DayLength`
      accepts, then the longest white-space run, the longest word run and the
      longest white-space run. */
  function Canon(s: string, i: nat): (c: Split)
    requires i <= |s|
    ensures c.start == i
  {
    var dayLen := DayLength(s, i);
    var gap1 := Span(s, i + dayLen, Space);
    var wordLen := Span(s, i + dayLen + gap1, Word);
    var gap2 := Span(s, i + dayLen + gap1 + wordLen, Space);
    Split(i, dayLen, gap1, wordLen, gap2)
  }

  /** The checks the matcher makes on the canonical split. */
  predicate Accepts(s: string, c: Split) {
    c.dayLen >= 1 && c.wordLen >= 1 && c.gap2 >= 1 && YearDigits(s, c.YearStart())
  }

  lemma CanonSound(s: string, i: nat)
    requires i <= |s| && Accepts(s, Canon(s, i))
    ensures ShapeAt(s, Canon(s, i))
  {
    var c := Canon(s, i);
    YearDigitsAllIn(s, c.YearStart());
    assert InClass(s[c.DayEnd()], Space);
  }

  /** The day digits and the first gap of a match are pinned down by the text. */
  lemma CanonDay(s: string, m: Split)
    requires ShapeAt(s, m)
    ensures DayLength(s, m.start) == m.dayLen
    ensures Span(s, m.DayEnd(), Space) == m.gap1
  {
    var i := m.start;
    assert InClass(s[i], Digit) && InClass(s[m.DayEnd()], Space);
    if m.dayLen == 2 {
      assert InClass(s[i + 1], Digit);
    } else {
      SpaceNotWord(s[i + 1]);
    }
    assert InClass(s[m.WordStart()], Word);
    WordNotSpace(s[m.WordStart()]);
    SpanExact(s, m.DayEnd(), Space, m.gap1);
  }

  /** The word and the second gap of a match are pinned down by the text. */
  lemma CanonWord(s: string, m: Split)
    requires ShapeAt(s, m)
    ensures Span(s, m.WordStart(), Word) == m.wordLen
    ensures Span(s, m.WordEnd(), Space) == m.gap2
    ensures YearDigits(s, m.YearStart())
  {
    assert InClass(s[m.WordEnd()], Space);
    SpaceNotWord(s[m.WordEnd()]);
    SpanExact(s, m.WordStart(), Word, m.wordLen);
    assert InClass(s[m.YearStart()], Digit);
    DigitNotSpace(s[m.YearStart()]);
    SpanExact(s, m.WordEnd(), Space, m.gap2);
    YearDigitsAllIn(s, m.YearStart());
  }

  /** Every part of a match is pinned down by the text, so a match is the
      canonical split and passes the matcher's checks. */
  lemma CanonComplete(s: string, m: Split)
    requires ShapeAt(s, m)
    ensures Canon(s, m.start) == m && Accepts(s, m)
  {
    CanonDay(s, m);
    CanonWord(s, m);
  }

  lemma CanonCompleteAll(s: string, i: nat)
    requires i <= |s|
    ensures forall m: Split :: m.start == i && ShapeAt(s, m) ==> Canon(s, i) == m && Accepts(s, m)
  {
    forall m: Split | m.start == i && ShapeAt(s, m)
      ensures Canon(s, i) == m && Accepts(s, m)
    {
      CanonComplete(s, m);
    }
  }

  /** The backtracking matcher's answer at start index `i`: a match of the
      pattern starting at `i` if there is one, and it is the only one. Each part
      of the pattern is followed by a class disjoint from its own, so every run
      is forced to be maximal. */
  function MatchAt(s: string, i: nat): (r: Option<Split>)
    requires i <= |s|
    ensures r.Some? ==> r.value.start == i && ShapeAt(s, r.value)
    ensures forall m: Split :: m.start == i && ShapeAt(s, m) ==> r == Some(m)
  {
    CanonCompleteAll(s, i);
    var c := Canon(s, i);
    if Accepts(s, c) then
      CanonSound(s, i);
      Some(c)
    else None
  }

  /** At most one match starts at any index. */
  lemma ShapeUnique(s: string, m1: Split, m2: Split)
    requires ShapeAt(s, m1) && ShapeAt(s, m2) && m1.start == m2.start
    ensures m1 == m2
  {
    var r := MatchAt(s, m1.start);
  }

  /** The leftmost match starting at index `i` or later. */
  function FindFrom(s: string, i: nat): (r: Option<Split>)
    requires i <= |s|
    ensures r.Some? ==> i <= r.value.start && ShapeAt(s, r.value)
    ensures r.Some? ==> forall k :: i <= k < r.value.start ==> NoMatchAt(s, k)
    ensures r.None? ==> forall k :: i <= k <= |s| ==> NoMatchAt(s, k)
    decreases |s| - i
  {
    match MatchAt(s, i)
    case Some(m) => Some(m)
    case None =>
      assert NoMatchAt(s, i);
      if i == |s| then None else FindFrom(s, i + 1)
  }

  /** `s.match(/\d{1,2}\s+\w+\s+\d{4}/)`: the leftmost match, or none when no
      index starts one. */
  function FindDate(s: string): (r: Option<Split>)
    ensures r.Some? ==> ShapeAt(s, r.value)
    ensures r.Some? ==> forall k :: 0 <= k < r.value.start ==> NoMatchAt(s, k)
    ensures r.None? <==> forall k :: 0 <= k <= |s| ==> NoMatchAt(s, k)
  {
    var r := FindFrom(s, 0);
    assert r.Some? ==> !NoMatchAt(s, r.value.start);
    r
  }

  // ---------------------------------------------------------------------------
  // Parsing the matched text as `dd MMMM yyyy`
  // ---------------------------------------------------------------------------

  lemma AllInDigits(s: string, lo: int, hi: int)
    requires AllIn(s, lo, hi, Digit)
    ensures AllDigits(s[lo..hi])
  {
    forall k | 0 <= k < hi - lo
      ensures IsDigit(s[lo..hi][k])
    {
      assert InClass(s[lo + k], Digit);
    }
  }

  /** The matched text spells date `d`: its day digits, month name and year
      digits are those of `d`. */
  ghost predicate SpellsDate(s: string, m: Split, d: Date)
    requires ShapeAt(s, m)
  {
    AllInDigits(s, m.start, m.DayEnd());
    AllInDigits(s, m.YearStart(), m.End());
    && 1 <= d.month <= 12
    && ParseDigits(s[m.start..m.DayEnd()]) == d.day
    && s[m.WordStart()..m.WordEnd()] == MonthName(d.month)
    && ParseDigits(s[m.YearStart()..m.End()]) == d.year
  }

  /** The two gaps of the match are single ASCII spaces, as the literal spaces
      of the pattern `'dd MMMM yyyy'` demand. */
  predicate SingleSpaced(s: string, m: Split)
    requires ShapeAt(s, m)
  {
    m.gap1 == 1 && m.gap2 == 1 && s[m.DayEnd()] == ' ' && s[m.WordEnd()] == ' '
  }

  /** A date that `parse(_, 'dd MMMM yyyy', _)` can produce: a real calendar
      day of a year from 1 on (the year field rejects 0). */
  predicate Parsable(d: Date) {
    ValidDate(d) && d.year >= 1
  }

  /** No date-fns parse of the match succeeds: a gap is not a single space,
      or the text spells no parsable date (unknown month name, day out of
      range, year 0). */
  ghost predicate Unparsable(s: string, m: Split)
    requires ShapeAt(s, m)
  {
    !SingleSpaced(s, m) || forall d :: Parsable(d) ==> !SpellsDate(s, m, d)
  }

  /** `parse(match, 'dd MMMM yyyy')` followed by `format`: succeeds with the
      four-digit-year date the text spells, and fails with date-fns's
      "Invalid time value" exactly when the match is unparsable. */
  function ParseMatch(s: string, m: Split): (r: Result<Date>)
    requires ShapeAt(s, m)
    ensures r.Success? ==> Parsable(r.value) && r.value.year <= 9999 && SpellsDate(s, m, r.value)
    ensures r.Failure? ==> r.error == InvalidTimeValue
    ensures r.Failure? <==> Unparsable(s, m)
  {
    AllInDigits(s, m.start, m.DayEnd());
    AllInDigits(s, m.YearStart(), m.End());
    ParseDigitsBound(s[m.YearStart()..m.End()]);
    var day := ParseDigits(s[m.start..m.DayEnd()]);
    var year := ParseDigits(s[m.YearStart()..m.End()]);
    if !SingleSpaced(s, m) then Failure(InvalidTimeValue)
    else
      match MonthNumber(s[m.WordStart()..m.WordEnd()])
      case None => Failure(InvalidTimeValue)
      case Some(month) =>
        var d := Date(year, month, day);
        if Parsable(d) then Success(d)
        else
          SpelledIsUnique(s, m, d);
          Failure(InvalidTimeValue)
  }

  /** A match spells at most one date. */
  lemma SpelledIsUnique(s: string, m: Split, d: Date)
    requires ShapeAt(s, m) && SpellsDate(s, m, d)
    ensures forall e :: SpellsDate(s, m, e) ==> e == d
  {
    forall e | SpellsDate(s, m, e)
      ensures e == d
    {
      MonthNameInjective(e.month, d.month);
    }
  }

  /** What index.js makes of a collection line: no date at all (the block is
      skipped), a parse failure, or the date spelled by the leftmost match. */
  function LineDate(line: string): (r: Result<Option<Date>>)
    ensures r.Success? && r.value.None? <==> forall k :: 0 <= k <= |line| ==> NoMatchAt(line, k)
    ensures r.Success? && r.value.Some? ==>
              && FindDate(line).Some?
              && Parsable(r.value.value) && r.value.value.year <= 9999
              && SpellsDate(line, FindDate(line).value, r.value.value)
    ensures r.Failure? <==> FindDate(line).Some? && Unparsable(line, FindDate(line).value)
    ensures r.Failure? ==> r.error == InvalidTimeValue
  {
    match FindDate(line)
    case None => Success(None)
    case Some(m) =>
      match ParseMatch(line, m)
      case Failure(e) => Failure(e)
      case Success(d) => Success(Some(d))
  }

  // ---------------------------------------------------------------------------
  // Round trip with the council's written form
  // ---------------------------------------------------------------------------

  /** How the council writes a date after the weekday: `14 January 2026`. */
  function Written(d: Date): string
    requires ValidDate(d) && 0 <= d.year
  {
    NatToString(d.day) + " " + MonthName(d.month) + " " + Pad(d.year, 4)
  }

  lemma MonthNameIsWord(month: int)
    requires 1 <= month <= 12
    ensures |MonthName(month)| >= 1
    ensures forall j :: 0 <= j < |MonthName(month)| ==> IsWordChar(MonthName(month)[j])
  {
  }

  /** Every character of `t` is in class `k`, and `t` sits in `s` at `lo`. */
  lemma AllInSlice(s: string, lo: nat, t: string, k: CharClass)
    requires lo + |t| <= |s| && s[lo..lo + |t|] == t
    requires forall j :: 0 <= j < |t| ==> InClass(t[j], k)
    ensures AllIn(s, lo, lo + |t|, k)
  {
    forall j | lo <= j < lo + |t|
      ensures InClass(s[j], k)
    {
      assert s[j] == t[j - lo];
    }
  }

  /** Where the five parts of `p + a + " " + n + " " + y` sit. */
  lemma PartsSlices(p: string, a: string, n: string, y: string)
    ensures var s := p + a + " " + n + " " + y;
            var m := Split(|p|, |a|, 1, |n|, 1);
            && (|y| == 4 ==> m.End() == |s|)
            && s[m.start..m.DayEnd()] == a
            && s[m.DayEnd()..m.WordStart()] == " "
            && s[m.WordStart()..m.WordEnd()] == n
            && s[m.WordEnd()..m.YearStart()] == " "
            && s[m.YearStart()..|s|] == y
  {
  }

  /** Day digits, a space, a word, a space and four digits form a match. */
  lemma PartsShape(p: string, a: string, n: string, y: string)
    requires 1 <= |a| <= 2 && AllDigits(a)
    requires |n| >= 1 && forall j :: 0 <= j < |n| ==> IsWordChar(n[j])
    requires |y| == 4 && AllDigits(y)
    ensures ShapeAt(p + a + " " + n + " " + y, Split(|p|, |a|, 1, |n|, 1))
  {
    var s := p + a + " " + n + " " + y;
    var m := Split(|p|, |a|, 1, |n|, 1);
    PartsSlices(p, a, n, y);
    AllInSlice(s, m.start, a, Digit);
    AllInSlice(s, m.DayEnd(), " ", Space);
    AllInSlice(s, m.WordStart(), n, Word);
    AllInSlice(s, m.WordEnd(), " ", Space);
    AllInSlice(s, m.YearStart(), y, Digit);
  }

  /** The written form of a date after any prefix is matched along the split
      of its day, one space, its month name, one space and its year, and that
      match spells the date. */
  lemma WrittenShape(prefix: string, d: Date)
    requires ValidDate(d) && 1 <= d.year <= 9999
    ensures var s := prefix + Written(d);
            var m := Split(|prefix|, |NatToString(d.day)|, 1, |MonthName(d.month)|, 1);
            ShapeAt(s, m) && SingleSpaced(s, m) && SpellsDate(s, m, d)
  {
    var day := NatToString(d.day);
    var name := MonthName(d.month);
    var year := Pad(d.year, 4);
    var s := prefix + Written(d);
    var m := Split(|prefix|, |day|, 1, |name|, 1);
    PadWidth(d.year, 4);
    assert s == prefix + day + " " + name + " " + year;
    assert ShapeAt(s, m) by {
      NatToStringLength(d.day, 2);
      MonthNameIsWord(d.month);
      PartsShape(prefix, day, name, year);
    }
    PartsSlices(prefix, day, name, year);
    assert SingleSpaced(s, m) by {
      assert s[m.DayEnd()] == s[m.DayEnd()..m.WordStart()][0];
      assert s[m.WordEnd()] == s[m.WordEnd()..m.YearStart()][0];
    }
    assert SpellsDate(s, m, d) by {
      NatToStringRoundTrip(d.day);
    }
  }

  /** The leftmost match in a digit-free prefix followed by a written date is
      the written date's own split. */
  lemma WrittenFound(prefix: string, d: Date)
    requires ValidDate(d) && 1 <= d.year <= 9999
    requires forall j :: 0 <= j < |prefix| ==> !IsDigit(prefix[j])
    ensures var s := prefix + Written(d);
            var m := Split(|prefix|, |NatToString(d.day)|, 1, |MonthName(d.month)|, 1);
            FindDate(s) == Some(m) && SingleSpaced(s, m) && SpellsDate(s, m, d)
  {
    var s := prefix + Written(d);
    var m := Split(|prefix|, |NatToString(d.day)|, 1, |MonthName(d.month)|, 1);
    WrittenShape(prefix, d);
    forall k | 0 <= k < |prefix|
      ensures NoMatchAt(s, k)
    {
      assert s[k] == prefix[k];
      forall m': Split | m'.start == k
        ensures !ShapeAt(s, m')
      {
        assert !InClass(s[k], Digit);
      }
    }
    var found := FindDate(s);
    assert !NoMatchAt(s, m.start);
    var f := found.value;
    assert !NoMatchAt(s, f.start);
    assert f.start == m.start;
    ShapeUnique(s, f, m);
  }

  /** A line holding a weekday (or any text without digits) followed by the
      written form of a date yields exactly that date, and formatting it gives
      back its day, month and four-digit year. */
  lemma WrittenRoundTrip(prefix: string, d: Date)
    requires ValidDate(d) && 1 <= d.year <= 9999
    requires forall j :: 0 <= j < |prefix| ==> !IsDigit(prefix[j])
    ensures LineDate(prefix + Written(d)) == Success(Some(d))
    ensures ParseFormatted(Format(d)) == Some(d)
  {
    var s := prefix + Written(d);
    var m := Split(|prefix|, |NatToString(d.day)|, 1, |MonthName(d.month)|, 1);
    WrittenFound(prefix, d);
    var parsed := ParseMatch(s, m);
    assert parsed.Success?;
    SpelledIsUnique(s, m, d);
    FormatRoundTrip(d);
  }
}

=== FILE: extract.dfy ===
/** Extraction of the collection schedule from the upstream HTML fragment
    (index.js:148-199), once the HTML selection has produced one record per
    bin section. */
module Extract {
  import opened Wrappers
  import opened Text
  import opened Calendar
  import opened DateMatch

  // ---------------------------------------------------------------------------
  // Bin categories and the label classifier (index.js:164-176)
  // ---------------------------------------------------------------------------

  /** The four bins the service reports on. */
  datatype Category = Grey | Beige | Burgundy | Green {
    /** The property of the response object that holds the bin's entry. */
    function Key(): string {
      match this
      case Grey => "grey"
      case Beige => "beige"
      case Burgundy => "burgundy"
      case Green => "green"
    }

    /** Position of the category in the classifier's chain of tests. */
    function Rank(): nat {
      match this
      case Grey => 0
      case Beige => 1
      case Burgundy => 2
      case Green => 3
    }
  }

  /** The words that select each category, as the classifier lists them. */
  const Keywords: seq<(string, Category)> := [
    ("grey", Grey), ("recycling", Beige), ("beige", Beige),
    ("plastic", Burgundy), ("burgundy", Burgundy),
    ("garden", Green), ("green", Green)
  ]

  /** Some keyword of category `c` occurs in `title` (case-sensitively). */
  ghost predicate Mentions(title: string, c: Category) {
    exists j :: 0 <= j < |Keywords| && Keywords[j].1 == c && Contains(title, Keywords[j].0)
  }

  /** The keyword table, category by category. */
  lemma MentionsByCategory(title: string)
    ensures Mentions(title, Grey) <==> Contains(title, "grey")
    ensures Mentions(title, Beige) <==> Contains(title, "recycling") || Contains(title, "beige")
    ensures Mentions(title, Burgundy) <==> Contains(title, "plastic") || Contains(title, "burgundy")
    ensures Mentions(title, Green) <==> Contains(title, "garden") || Contains(title, "green")
  {
    assert Keywords[0] == ("grey", Grey) && Keywords[1] == ("recycling", Beige);
    assert Keywords[2] == ("beige", Beige) && Keywords[3] == ("plastic", Burgundy);
    assert Keywords[4] == ("burgundy", Burgundy) && Keywords[5] == ("garden", Green);
    assert Keywords[6] == ("green", Green);
  }

  /** The bin a section label describes: the first category, in the order
      grey, beige, burgundy, green, that has a keyword in the label; none when
      no keyword occurs. */
  function Classify(title: string): (r: Option<Category>)
    ensures r.None? <==> forall c: Category :: !Mentions(title, c)
    ensures r.Some? ==> Mentions(title, r.value)
    ensures r.Some? ==> forall c: Category :: c.Rank() < r.value.Rank() ==> !Mentions(title, c)
  {
    MentionsByCategory(title);
    if Contains(title, "grey") then Some(Grey)
    else if Contains(title, "recycling") || Contains(title, "beige") then Some(Beige)
    else if Contains(title, "plastic") || Contains(title, "burgundy") then Some(Burgundy)
    else if Contains(title, "garden") || Contains(title, "green") then Some(Green)
    else None
  }

  /** A label naming two bins goes to the earlier one, and the test is
      case-sensitive. */
  lemma ClassifyExamples()
    ensures Classify("grey and green") == Some(Grey)
    ensures Classify("Grey") == None
  {
    assert OccursAt("grey and green", "grey", 0);
    NoKeywordIn("Grey");
  }

  /** "Grey" holds none of the keywords: the four-letter one differs in its
      first letter and the others are longer. */
  lemma NoKeywordIn(title: string)
    requires title == "Grey"
    ensures !Contains(title, "grey") && !Contains(title, "recycling") && !Contains(title, "beige")
    ensures !Contains(title, "plastic") && !Contains(title, "burgundy")
    ensures !Contains(title, "garden") && !Contains(title, "green")
  {
    assert title[0..4][0] != "grey"[0];
    assert !OccursAt(title, "grey", 0);
  }

  // ---------------------------------------------------------------------------
  // Sections and entries (index.js:152-163, 189-193)
  // ---------------------------------------------------------------------------

  /** One bin section as the HTML selection hands it over: the text of its
      `strong` label, the `src` of its first image if any, and the texts of
      its list items in document order. */
  datatype Block = Block(strong: string, imgSrc: Option<string>, items: seq<string>)

  /** What the response carries for one bin. */
  datatype Entry = Entry(date: string, image: Option<string>, relativeTime: string)

  /** A property value of the response object: the `state` marker or a bin entry. */
  datatype Field = Status(status: string) | Record(entry: Entry)

  /** The response object `binInfo`, property name to value. */
  type BinInfo = map<string, Field>

  /** `binInfo` before any section is read. */
  const Initial: BinInfo := map["state" := Status("ok")]

  /** Prefix of every error raised inside the response handler's `try`. */
  const ParseErrorPrefix: string := "Error parsing response: "

  /** The trimmed section label. */
  function Label(b: Block): string {
    Trim(b.strong)
  }

  /** The trimmed text of the first list item; empty when there is none. */
  function FirstItem(b: Block): string {
    if |b.items| == 0 then "" else Trim(b.items[0])
  }

  /** The image URL with all white space removed; an absent image stays absent. */
  function CleanImage(src: Option<string>): (r: Option<string>)
    ensures r.None? <==> src.None?
    ensures r.Some? ==> NoSpace(r.value) && |r.value| <= |src.value|
    ensures r.Some? && NoSpace(src.value) ==> r == src
    ensures r.Some? ==> forall k :: 0 <= k < |src.value| && !IsSpace(src.value[k]) ==> src.value[k] in r.value
    ensures r.Some? ==> forall c :: c in r.value ==> c in src.value
  {
    match src
    case None => None
    case Some(u) => Some(Strip(u))
  }

  /** Cleaning works piece by piece: the cleaned URL of a concatenation is the
      concatenation of the cleaned pieces, so the kept characters stay in
      their order. */
  lemma CleanImageConcat(a: string, b: string)
    ensures CleanImage(Some(a + b)).value == CleanImage(Some(a)).value + CleanImage(Some(b)).value
  {
    StripConcat(a, b);
  }

  /** Cleaning a single character keeps it exactly when it is not white
      space; with `CleanImageConcat` this fixes the cleaned URL as the
      input's non-space characters in order. */
  lemma CleanImageChar(c: char)
    ensures CleanImage(Some([c])).value == if IsSpace(c) then [] else [c]
  {
    assert [c][1..] == [];
  }

  /** Cleaning an image URL twice changes nothing more. */
  lemma CleanImageIdempotent(src: Option<string>)
    ensures CleanImage(CleanImage(src)) == CleanImage(src)
  {
    if src.Some? {
      StripIdempotent(src.value);
    }
  }

  /** Block `b` produces entry `e` for category `c`: the label classifies to
      `c`, the leftmost date in the first item spells a date `d` that the
      entry's date string reads back as, the entry's label is the relative
      label of `d`'s day offset at `nowMs` (and so reads back as that offset),
      and the image is the cleaned URL. */
  ghost predicate Describes(b: Block, nowMs: int, c: Category, e: Entry) {
    && Classify(Label(b)) == Some(c)
    && FindDate(FirstItem(b)).Some?
    && (exists d :: && Parsable(d) && SpellsDate(FirstItem(b), FindDate(FirstItem(b)).value, d)
                    && ParseFormatted(e.date) == Some(d)
                    && ParseRelative(e.relativeTime) == Some(RelativeDays(d, nowMs))
                    && e.relativeTime == RelativeLabel(RelativeDays(d, nowMs)))
    && e.image == CleanImage(b.imgSrc)
  }

  /** The entry's date is a `dd/MM/yyyy` string and its image URL holds no
      white space. */
  ghost predicate CleanEntry(e: Entry) {
    && |e.date| == 10 && e.date[2] == '/' && e.date[5] == '/'
    && (e.image.Some? ==> NoSpace(e.image.value))
  }

  /** The body of the `.each` callback for one section: nothing when the label
      or first item is empty, the label names no bin or the item holds no date;
      a parse error when the leftmost date is unparsable; otherwise the bin's
      entry. */
  function ProcessBlock(b: Block, nowMs: int): (r: Result<Option<(Category, Entry)>>)
    ensures r.Success? && r.value.None? <==>
              Label(b) == [] || FirstItem(b) == [] || Classify(Label(b)).None?
              || FindDate(FirstItem(b)).None?
    ensures r.Failure? <==>
              && Label(b) != [] && FirstItem(b) != [] && Classify(Label(b)).Some?
              && FindDate(FirstItem(b)).Some? && Unparsable(FirstItem(b), FindDate(FirstItem(b)).value)
    ensures r.Failure? ==> r.error == ParseErrorPrefix + InvalidTimeValue
    ensures r.Success? && r.value.Some? ==>
              Describes(b, nowMs, r.value.value.0, r.value.value.1) && CleanEntry(r.value.value.1)
  {
    var title := Label(b);
    var line := FirstItem(b);
    if title == [] || line == [] then Success(None)
    else
      match Classify(title)
      case None => Success(None)
      case Some(c) =>
        match LineDate(line)
        case Failure(e) => Failure(ParseErrorPrefix + e)
        case Success(None) => Success(None)
        case Success(Some(d)) =>
          FormatRoundTrip(d);
          RelativeLabelRoundTrip(RelativeDays(d, nowMs));
          var e := Entry(Format(d), CleanImage(b.imgSrc), RelativeLabel(RelativeDays(d, nowMs)));
          Success(Some((c, e)))
  }

  // ---------------------------------------------------------------------------
  // The fold over all sections (index.js:149-199)
  // ---------------------------------------------------------------------------

  /** Every property name the response object can have. */
  const AllKeys: set<string> := {"state", "grey", "beige", "burgundy", "green"}

  /** The shape every successful `binInfo` keeps: `state` is "ok", the other
      properties are bin names holding clean entries. */
  ghost predicate WellFormed(info: BinInfo) {
    && info.Keys <= AllKeys
    && "state" in info && info["state"] == Status("ok")
    && forall c: Category :: c.Key() in info ==> info[c.Key()].Record? && CleanEntry(info[c.Key()].entry)
  }

  /** Writes one section's outcome into `binInfo`. */
  function Apply(info: BinInfo, step: Option<(Category, Entry)>): BinInfo {
    match step
    case None => info
    case Some((c, e)) => info[c.Key() := Record(e)]
  }

  /** Writing a clean entry keeps `binInfo` well formed. */
  lemma ApplyWellFormed(info: BinInfo, step: Option<(Category, Entry)>)
    requires WellFormed(info)
    requires step.Some? ==> CleanEntry(step.value.1)
    ensures WellFormed(Apply(info, step))
  {
    if step.Some? {
      var c := step.value.0;
      KeyDistinct(c);
      forall c': Category | c'.Key() in Apply(info, step)
        ensures Apply(info, step)[c'.Key()].Record? && CleanEntry(Apply(info, step)[c'.Key()].entry)
      {
        KeyDistinct(c');
      }
    }
  }

  /** What one section contributes: a parse error, nothing, or a bin entry. */
  type Outcome = Result<Option<(Category, Entry)>>

  /** Every outcome carries a clean entry or the parse error. */
  ghost predicate AllClean(steps: seq<Outcome>) {
    forall j :: 0 <= j < |steps| ==>
      && (steps[j].Success? && steps[j].value.Some? ==> CleanEntry(steps[j].value.value.1))
      && (steps[j].Failure? ==> steps[j].error == ParseErrorPrefix + InvalidTimeValue)
  }

  /** Outcome `o` is an entry for bin `c`. */
  predicate YieldsFor(o: Outcome, c: Category) {
    o.Success? && o.value.Some? && o.value.value.0 == c
  }

  /** Applies the sections' outcomes in document order to the initial
      `binInfo`; the first parse error abandons the whole response. */
  function Fold(steps: seq<Outcome>): (r: Result<BinInfo>)
    requires AllClean(steps)
    ensures r.Success? ==> WellFormed(r.value)
    ensures r.Failure? ==> r.error == ParseErrorPrefix + InvalidTimeValue
    decreases |steps|
  {
    if |steps| == 0 then Success(Initial)
    else
      var init := steps[..|steps| - 1];
      assert forall j :: 0 <= j < |init| ==> init[j] == steps[j];
      var prev := Fold(init);
      var step := steps[|steps| - 1];
      if prev.Failure? then prev
      else if step.Failure? then Failure(step.error)
      else
        ApplyWellFormed(prev.value, step.value);
        Success(Apply(prev.value, step.value))
  }

  /** The outcome of every section, in document order. */
  function Outcomes(blocks: seq<Block>, nowMs: int): (r: seq<Outcome>)
    ensures |r| == |blocks|
    ensures forall j :: 0 <= j < |blocks| ==> r[j] == ProcessBlock(blocks[j], nowMs)
    ensures AllClean(r)
  {
    if |blocks| == 0 then []
    else
      var n := |blocks| - 1;
      var init := Outcomes(blocks[..n], nowMs);
      var last := ProcessBlock(blocks[n], nowMs);
      var r := init + [last];
      forall j | 0 <= j < |blocks|
        ensures r[j] == ProcessBlock(blocks[j], nowMs)
      {
        if j < n {
          assert r[j] == init[j];
          assert blocks[..n][j] == blocks[j];
        } else {
          assert j == n && |init| == n;
          assert r[j] == last;
        }
      }
      r
  }

  /** The `.each` loop over all sections followed by `callback(null, binInfo)`,
      or the parse error that aborts it. */
  function ExtractSchedule(blocks: seq<Block>, nowMs: int): (r: Result<BinInfo>)
    ensures r.Success? ==> WellFormed(r.value)
    ensures r.Failure? ==> r.error == ParseErrorPrefix + InvalidTimeValue
  {
    Fold(Outcomes(blocks, nowMs))
  }

  /** A successful response always has `state` and at most the four bins, so
      its property count is between 1 and 5 and never 0. */
  lemma KeyCount(info: BinInfo)
    requires WellFormed(info)
    ensures 1 <= |info.Keys| <= 5
  {
    assert "state" in info.Keys;
    assert |AllKeys| == 5;
    SubsetCard(info.Keys, AllKeys);
  }

  lemma SubsetCard<T>(a: set<T>, b: set<T>)
    requires a <= b
    ensures |a| <= |b|
  {
    assert b == a + (b - a);
  }

  /** A section that contributes nothing leaves the result alone. */
  lemma SkipStep(steps: seq<Outcome>)
    requires AllClean(steps + [Success(None)])
    ensures AllClean(steps)
    ensures Fold(steps + [Success(None)]) == Fold(steps)
  {
    assert (steps + [Success(None)])[..|steps|] == steps;
  }

  lemma AllCleanPrefix(steps: seq<Outcome>, n: nat)
    requires AllClean(steps) && n <= |steps|
    ensures AllClean(steps[..n])
  {
    assert forall j :: 0 <= j < n ==> steps[..n][j] == steps[j];
  }

  /** One step of a successful fold. */
  lemma FoldUnfold(steps: seq<Outcome>)
    requires AllClean(steps) && |steps| > 0 && Fold(steps).Success?
    ensures AllClean(steps[..|steps| - 1]) && Fold(steps[..|steps| - 1]).Success?
    ensures steps[|steps| - 1].Success?
    ensures Fold(steps).value == Apply(Fold(steps[..|steps| - 1]).value, steps[|steps| - 1].value)
  {
    AllCleanPrefix(steps, |steps| - 1);
  }

  /** The fold fails exactly when some outcome is a failure. */
  lemma {:induction false} FoldFailsIff(steps: seq<Outcome>)
    requires AllClean(steps)
    ensures Fold(steps).Failure? <==> exists j :: 0 <= j < |steps| && steps[j].Failure?
    decreases |steps|
  {
    if |steps| > 0 {
      var init := steps[..|steps| - 1];
      assert forall j :: 0 <= j < |init| ==> init[j] == steps[j];
      FoldFailsIff(init);
      if exists j :: 0 <= j < |steps| && steps[j].Failure? {
        var j :| 0 <= j < |steps| && steps[j].Failure?;
        if j < |init| {
          assert init[j].Failure?;
        }
      }
    }
  }

  /** Writing an outcome for another bin leaves bin `c`'s property alone. */
  lemma ApplyOther(info: BinInfo, step: Option<(Category, Entry)>, c: Category)
    requires !(step.Some? && step.value.0 == c)
    ensures c.Key() in Apply(info, step) <==> c.Key() in info
    ensures c.Key() in info ==> Apply(info, step)[c.Key()] == info[c.Key()]
  {
    if step.Some? {
      KeyDistinct(step.value.0);
    }
  }

  /** A bin is in a successful result exactly when some outcome is an entry
      for it. */
  lemma {:induction false} FoldPresent(steps: seq<Outcome>, c: Category)
    requires AllClean(steps) && Fold(steps).Success?
    ensures c.Key() in Fold(steps).value <==> exists j :: 0 <= j < |steps| && YieldsFor(steps[j], c)
    decreases |steps|
  {
    if |steps| == 0 {
      KeyDistinct(c);
    } else {
      var n := |steps| - 1;
      var init := steps[..n];
      FoldUnfold(steps);
      FoldPresent(init, c);
      if YieldsFor(steps[n], c) {
        assert c.Key() in Fold(steps).value;
      } else {
        ApplyOther(Fold(init).value, steps[n].value, c);
        if exists j :: 0 <= j < |steps| && YieldsFor(steps[j], c) {
          var j :| 0 <= j < |steps| && YieldsFor(steps[j], c);
          assert YieldsFor(init[j], c);
        }
        if c.Key() in Fold(init).value {
          var j :| 0 <= j < |init| && YieldsFor(init[j], c);
          assert YieldsFor(steps[j], c);
        }
      }
    }
  }

  /** In a successful result a bin holds the entry of the last outcome that is
      an entry for it. */
  lemma {:induction false} FoldLastWins(steps: seq<Outcome>, c: Category, j: int)
    requires AllClean(steps) && Fold(steps).Success?
    requires 0 <= j < |steps| && YieldsFor(steps[j], c)
    requires forall k :: j < k < |steps| ==> !YieldsFor(steps[k], c)
    ensures c.Key() in Fold(steps).value
    ensures Fold(steps).value[c.Key()] == Record(steps[j].value.value.1)
    decreases |steps|
  {
    var n := |steps| - 1;
    FoldUnfold(steps);
    if j < n {
      var init := steps[..n];
      assert YieldsFor(init[j], c);
      assert forall k :: j < k < |init| ==> init[k] == steps[k];
      FoldLastWins(init, c, j);
      ApplyOther(Fold(init).value, steps[n].value, c);
    }
  }

  /** Block `b` produces an entry for `c`. */
  ghost predicate Yields(b: Block, nowMs: int, c: Category) {
    YieldsFor(ProcessBlock(b, nowMs), c)
  }

  /** The whole response fails exactly when some section fails. */
  lemma FailsIffSomeBlockFails(blocks: seq<Block>, nowMs: int)
    ensures ExtractSchedule(blocks, nowMs).Failure? <==>
            exists j :: 0 <= j < |blocks| && ProcessBlock(blocks[j], nowMs).Failure?
  {
    var steps := Outcomes(blocks, nowMs);
    FoldFailsIff(steps);
    if exists j :: 0 <= j < |blocks| && ProcessBlock(blocks[j], nowMs).Failure? {
      var j :| 0 <= j < |blocks| && ProcessBlock(blocks[j], nowMs).Failure?;
      assert steps[j].Failure?;
    }
  }

  /** Section `j` yields bin `c` exactly when its outcome is an entry for `c`. */
  lemma YieldsAt(blocks: seq<Block>, nowMs: int, c: Category, j: int)
    requires 0 <= j < |blocks|
    ensures Yields(blocks[j], nowMs, c) <==> YieldsFor(Outcomes(blocks, nowMs)[j], c)
  {
  }

  /** A bin appears in a successful response exactly when some section yields
      it. */
  lemma SectionPresent(blocks: seq<Block>, nowMs: int, c: Category)
    requires ExtractSchedule(blocks, nowMs).Success?
    ensures c.Key() in ExtractSchedule(blocks, nowMs).value <==>
            exists j :: 0 <= j < |blocks| && Yields(blocks[j], nowMs, c)
  {
    var steps := Outcomes(blocks, nowMs);
    FoldPresent(steps, c);
    if exists j :: 0 <= j < |blocks| && Yields(blocks[j], nowMs, c) {
      var j :| 0 <= j < |blocks| && Yields(blocks[j], nowMs, c);
      YieldsAt(blocks, nowMs, c, j);
    }
    if exists j :: 0 <= j < |steps| && YieldsFor(steps[j], c) {
      var j :| 0 <= j < |steps| && YieldsFor(steps[j], c);
      YieldsAt(blocks, nowMs, c, j);
    }
  }

  /** When sections `j` and later name the same bin, the response holds the
      entry of the last of them. */
  lemma LastSectionWins(blocks: seq<Block>, nowMs: int, c: Category, j: int)
    requires ExtractSchedule(blocks, nowMs).Success?
    requires 0 <= j < |blocks| && Yields(blocks[j], nowMs, c)
    requires forall k :: j < k < |blocks| ==> !Yields(blocks[k], nowMs, c)
    ensures c.Key() in ExtractSchedule(blocks, nowMs).value
    ensures ExtractSchedule(blocks, nowMs).value[c.Key()] == Record(ProcessBlock(blocks[j], nowMs).value.value.1)
  {
    var steps := Outcomes(blocks, nowMs);
    YieldsAt(blocks, nowMs, c, j);
    forall k | j < k < |steps|
      ensures !YieldsFor(steps[k], c)
    {
      YieldsAt(blocks, nowMs, c, k);
    }
    FoldLastWins(steps, c, j);
  }

  /** Appending a section that contributes nothing leaves the result alone. */
  lemma SkipBlock(blocks: seq<Block>, b: Block, nowMs: int)
    requires ProcessBlock(b, nowMs) == Success(None)
    ensures ExtractSchedule(blocks + [b], nowMs) == ExtractSchedule(blocks, nowMs)
  {
    var steps := Outcomes(blocks, nowMs);
    assert Outcomes(blocks + [b], nowMs) == steps + [Success(None)];
    SkipStep(steps);
  }

  /** Bin property names differ from each other and from `state`. */
  lemma KeyDistinct(c: Category)
    ensures c.Key() != "state"
    ensures forall c': Category :: c'.Key() == c.Key() ==> c' == c
  {
  }

  /** The council's own wording, "Wednesday 14 January 2026", seen on
      10 January 2026: four days ahead at midnight, three days ahead for the
      rest of that day. */
  lemma CollectionExample(t: int)
    requires 0 <= t < MsPerDay
    ensures var b := Block("grey bin", None, ["Wednesday 14 January 2026"]);
            var r := ProcessBlock(b, MidnightMs(Date(2026, 1, 10)) + t);
            r == Success(Some((Grey, Entry("14/01/2026", None, if t == 0 then "in 4 days" else "in 3 days"))))
  {
    var b := Block("grey bin", None, ["Wednesday 14 January 2026"]);
    var d := Date(2026, 1, 14);
    var nowMs := MidnightMs(Date(2026, 1, 10)) + t;
    ExampleTrimLabel();
    ExampleTrimItem();
    ExampleLine();
    ExampleLabel();
    ExampleFormat();
    ExampleOffset(t);
    assert ProcessBlock(b, nowMs) == Success(Some((Grey, Entry(Format(d), None, RelativeLabel(RelativeDays(d, nowMs))))));
  }

  lemma ExampleTrimLabel()
    ensures Label(Block("grey bin", None, ["Wednesday 14 January 2026"])) == "grey bin"
  {
    var s := "grey bin";
    assert s[0] == 'g' && s[|s| - 1] == 'n';
    TrimUntouched(s);
  }

  lemma ExampleTrimItem()
    ensures FirstItem(Block("grey bin", None, ["Wednesday 14 January 2026"])) == "Wednesday 14 January 2026"
  {
    var line := "Wednesday 14 January 2026";
    assert line[0] == 'W' && line[|line| - 1] == '6';
    TrimUntouched(line);
  }

  lemma ExampleWritten()
    ensures "Wednesday " + Written(Date(2026, 1, 14)) == "Wednesday 14 January 2026"
  {
    assert NatToString(14) == "14";
    ExampleYear();
    assert MonthName(1) == "January";
    assert Written(Date(2026, 1, 14)) == "14" + " " + "January" + " " + "2026";
  }

  lemma ExampleYear()
    ensures Pad(2026, 4) == "2026"
  {
    assert NatToString(2) == "2";
    assert NatToString(20) == "20";
    assert NatToString(202) == "202";
    assert NatToString(2026) == "2026";
  }

  lemma ExampleLine()
    ensures LineDate("Wednesday 14 January 2026") == Success(Some(Date(2026, 1, 14)))
  {
    ExampleWritten();
    WrittenRoundTrip("Wednesday ", Date(2026, 1, 14));
  }

  lemma ExampleLabel()
    ensures Classify("grey bin") == Some(Grey)
  {
    assert OccursAt("grey bin", "grey", 0);
  }

  lemma ExampleFormat()
    ensures Format(Date(2026, 1, 14)) == "14/01/2026"
  {
    assert Pad(14, 2) == "14";
    assert Pad(1, 2) == "01";
    ExampleYear();
  }

  lemma ExampleOffset(t: int)
    requires 0 <= t < MsPerDay
    ensures RelativeLabel(RelativeDays(Date(2026, 1, 14), MidnightMs(Date(2026, 1, 10)) + t))
            == if t == 0 then "in 4 days" else "in 3 days"
  {
    RelativeDaysOffset(Date(2026, 1, 14), Date(2026, 1, 10), t);
    assert DayNumber(Date(2026, 1, 14)) - DayNumber(Date(2026, 1, 10)) == 4;
    assert NatToString(4) == "4" && NatToString(3) == "3";
  }
}

=== FILE: service.dfy ===
/** The bin-collection call to the council API and the HTTP handler in front
    of it (index.js:77-249). Network exchanges are inputs: each is either a
    transport error or the response that came back. */
module Service {
  import opened Wrappers
  import opened Text
  import opened Calendar
  import opened Extract
  import opened Session

  // ---------------------------------------------------------------------------
  // The API request (index.js:85-105)
  // ---------------------------------------------------------------------------

  /** Length of the requested window in days. */
  const WindowDays: nat := 56

  /** What the API call sends: the two credentials and the request body's
      `name` and `data` fields. */
  datatype ApiRequest = ApiRequest(csrfToken: string, authorization: string, name: string,
                                   uprn: string, startDate: string, endDate: string)

  /** The request for `uprn` made on calendar day `today`: the window runs from
      today to 56 days later, both as `dd/MM/yyyy`. */
  function MakeRequest(uprn: string, auth: Auth, today: Date): (q: ApiRequest)
    requires ValidDate(today)
    ensures q.csrfToken == auth.csrfToken && q.authorization == auth.authHeader && q.uprn == uprn
    ensures 1 <= today.year <= 9998 ==> |q.startDate| == 10 && |q.endDate| == 10
  {
    AddDaysYear(today, WindowDays);
    ApiRequest(auth.csrfToken, auth.authHeader, "es_bin_collection_dates", uprn,
               Format(today), Format(AddDays(today, WindowDays)))
  }

  /** The window's dates read back as today and a valid date exactly 56 day
      numbers later. */
  lemma WindowSpan(uprn: string, auth: Auth, today: Date)
    requires ValidDate(today) && 1 <= today.year <= 9998
    ensures var q := MakeRequest(uprn, auth, today);
            && ParseFormatted(q.startDate) == Some(today)
            && ParseFormatted(q.endDate).Some?
            && ValidDate(ParseFormatted(q.endDate).value)
            && DayNumber(ParseFormatted(q.endDate).value) == DayNumber(today) + WindowDays
  {
    var end := AddDays(today, WindowDays);
    AddDaysYear(today, WindowDays);
    FormatRoundTrip(today);
    FormatRoundTrip(end);
  }

  // ---------------------------------------------------------------------------
  // callService (index.js:77-213)
  // ---------------------------------------------------------------------------

  /** The body of the API's reply: text that `JSON.parse` or the field access
      rejects with the given message, or an object whose optional
      `data.collection_dates` is the HTML fragment together with the bin
      sections the HTML selection finds in it. */
  datatype Envelope = BadJson(message: string) | Json(collectionDates: Option<string>, sections: seq<Block>)

  /** The API's reply: status code and body. */
  datatype Upstream = Upstream(status: int, envelope: Envelope)

  const AuthPrefix: string := "Failed to get auth token: "
  const RequestPrefix: string := "Problem with request: "
  const StatusPrefix: string := "Request failed with status code: "
  const NoData: string := "No collection data found in response"

  /** A status code as template-literal interpolation writes it. */
  function StatusText(status: int): (r: string)
    ensures |r| >= 1
  {
    if status >= 0 then NatToString(status) else "-" + NatToString(-status)
  }

  /** Reads back the status code of a status-failure message. */
  function StatusOf(error: string): Option<int> {
    if StartsWith(error, StatusPrefix) && |error| > |StatusPrefix| && AllDigits(error[|StatusPrefix|..]) then
      Some(ParseDigits(error[|StatusPrefix|..]))
    else None
  }

  /** The status code is recoverable from the message a non-2xx reply gives. */
  lemma StatusMessageRoundTrip(status: nat)
    ensures StatusOf(StatusPrefix + StatusText(status)) == Some(status)
  {
    var e := StatusPrefix + StatusText(status);
    assert e[..|StatusPrefix|] == StatusPrefix;
    assert e[|StatusPrefix|..] == NatToString(status);
    NatToStringRoundTrip(status);
  }

  /** The upstream reply is accepted: a 2xx status and a non-empty
      `collection_dates` in a parsable body. */
  predicate Accepted(u: Upstream) {
    && 200 <= u.status < 300
    && u.envelope.Json?
    && u.envelope.collectionDates.Some? && u.envelope.collectionDates.value != ""
  }

  // ---------------------------------------------------------------------------
  // Credential headers (index.js:110-122)
  // ---------------------------------------------------------------------------

  const CsrfHeader: string := "X-CSRF-TOKEN"
  const AuthorizationHeader: string := "Authorization"

  /** A character Node accepts in an outgoing header value: tab, printable
      ASCII, or a code point from 0x80 to 0xFF. */
  predicate HeaderChar(c: char) {
    c == '\t' || (' ' <= c <= '~') || ('\U{0080}' <= c <= '\U{00FF}')
  }

  /** Every character of `v` is one Node accepts in a header value. */
  predicate ValidHeaderValue(v: string) {
    |v| == 0 || (HeaderChar(v[0]) && ValidHeaderValue(v[1..]))
  }

  /** The message of the error `https.request` throws for a refused value of
      header `name`. */
  function InvalidHeader(name: string): string {
    "Invalid character in header content [\"" + name + "\"]"
  }

  /** The first credential header, in the order the request options list
      them, whose value Node refuses, as the message of the thrown error. */
  function HeaderError(auth: Auth): (r: Option<string>)
    ensures r.None? <==> ValidHeaderValue(auth.csrfToken) && ValidHeaderValue(auth.authHeader)
    ensures r.Some? ==> r.value == InvalidHeader(CsrfHeader) || r.value == InvalidHeader(AuthorizationHeader)
    ensures r == Some(InvalidHeader(CsrfHeader)) <==> !ValidHeaderValue(auth.csrfToken)
  {
    assert |InvalidHeader(CsrfHeader)| < |InvalidHeader(AuthorizationHeader)|;
    if !ValidHeaderValue(auth.csrfToken) then Some(InvalidHeader(CsrfHeader))
    else if !ValidHeaderValue(auth.authHeader) then Some(InvalidHeader(AuthorizationHeader))
    else None
  }

  /** The credentials `callService` puts into the API call's headers, or the
      failure that stops it first. A credential Node refuses as a header value
      makes `https.request` throw inside the credentials callback; the `catch`
      of index.js:62-64 hands the error back, so it is reported as an auth
      failure. */
  function Credentials(citizen: Exchange<Option<string>>, portal: Exchange<string>): (r: Result<Auth>)
    ensures r.Success? <==>
              && GetAuthToken(citizen, portal).Success?
              && ValidHeaderValue(CsrfToken(portal.response).value)
              && ValidHeaderValue(citizen.response.value)
    ensures r.Success? ==> && r.value.csrfToken == CsrfToken(portal.response).value
                           && r.value.authHeader == citizen.response.value
    ensures GetAuthToken(citizen, portal).Failure? ==>
              r == Failure(AuthPrefix + GetAuthToken(citizen, portal).error)
    ensures GetAuthToken(citizen, portal).Success? && !ValidHeaderValue(CsrfToken(portal.response).value) ==>
              r == Failure(AuthPrefix + InvalidHeader(CsrfHeader))
    ensures GetAuthToken(citizen, portal).Success? && ValidHeaderValue(CsrfToken(portal.response).value)
            && !ValidHeaderValue(citizen.response.value) ==>
              r == Failure(AuthPrefix + InvalidHeader(AuthorizationHeader))
  {
    match GetAuthToken(citizen, portal)
    case Failure(m) => Failure(AuthPrefix + m)
    case Success(auth) =>
      match HeaderError(auth)
      case Some(m) => Failure(AuthPrefix + m)
      case None => Success(auth)
  }

  /** The API request `callService` sends for `uprn` on day `today`, or the
      failure that stops it first. Whatever is sent carries the caller's uprn
      and header values Node accepts. */
  function Outgoing(citizen: Exchange<Option<string>>, portal: Exchange<string>,
                    uprn: string, today: Date): (r: Result<ApiRequest>)
    requires ValidDate(today)
    ensures r.Success? <==> Credentials(citizen, portal).Success?
    ensures r.Failure? ==> r.error == Credentials(citizen, portal).error
    ensures r.Success? ==> && r.value.uprn == uprn
                           && r.value.csrfToken == CsrfToken(portal.response).value
                           && r.value.authorization == citizen.response.value
                           && ValidHeaderValue(r.value.csrfToken)
                           && ValidHeaderValue(r.value.authorization)
  {
    match Credentials(citizen, portal)
    case Failure(m) => Failure(m)
    case Success(auth) => Success(MakeRequest(uprn, auth, today))
  }

  /** A scraped token holding a line feed is accepted by the CSRF pattern but
      refused as a header value, so the call fails before any request is sent,
      whatever the API would have answered. */
  lemma LineFeedToken(upstream: Exchange<Upstream>, nowMs: int)
    ensures CsrfToken(MetaPrefix + "a\nb" + [Quote]) == Some("a\nb")
    ensures CallService(Reply(Some("Bearer x")), Reply(MetaPrefix + "a\nb" + [Quote]), upstream, nowMs)
            == Failure(AuthPrefix + InvalidHeader(CsrfHeader))
  {
    var page := MetaPrefix + "a\nb" + [Quote];
    CsrfTokenOfTag("", "a\nb", "");
    assert "" + MetaPrefix + "a\nb" + [Quote] + "" == page;
    var citizen: Exchange<Option<string>> := Reply(Some("Bearer x"));
    assert GetAuthToken(citizen, Reply(page)) == Success(Auth("a\nb", "Bearer x"));
    assert !ValidHeaderValue("\nb");
    assert Credentials(citizen, Reply(page)) == Failure(AuthPrefix + InvalidHeader(CsrfHeader));
  }

  /** `callService`: the credentials, the API call, the status and envelope
      checks, and the schedule extraction. Every failure is reported as one
      message; a partial schedule is never returned. */
  function CallService(citizen: Exchange<Option<string>>, portal: Exchange<string>,
                       upstream: Exchange<Upstream>, nowMs: int): (r: Result<BinInfo>)
    ensures r.Success? <==>
              && Credentials(citizen, portal).Success?
              && upstream.Reply? && Accepted(upstream.response)
              && ExtractSchedule(upstream.response.envelope.sections, nowMs).Success?
    ensures r.Success? ==> r == ExtractSchedule(upstream.response.envelope.sections, nowMs)
    ensures r.Success? ==> WellFormed(r.value)
    ensures GetAuthToken(citizen, portal).Failure? ==>
              r == Failure(AuthPrefix + GetAuthToken(citizen, portal).error)
    ensures GetAuthToken(citizen, portal).Success? && !Credentials(citizen, portal).Success? ==>
              && r == Failure(Credentials(citizen, portal).error)
              && (r == Failure(AuthPrefix + InvalidHeader(CsrfHeader))
                  || r == Failure(AuthPrefix + InvalidHeader(AuthorizationHeader)))
    ensures Credentials(citizen, portal).Success? && upstream.Reply?
            && !(200 <= upstream.response.status < 300) ==>
              r.Failure? && StartsWith(r.error, StatusPrefix)
    ensures Credentials(citizen, portal).Success? && upstream.Transport? ==>
              r == Failure(RequestPrefix + upstream.message)
    ensures Credentials(citizen, portal).Success? && upstream.Reply?
            && 200 <= upstream.response.status < 300 && upstream.response.envelope.BadJson? ==>
              r == Failure(ParseErrorPrefix + upstream.response.envelope.message)
    ensures Credentials(citizen, portal).Success? && upstream.Reply?
            && 200 <= upstream.response.status < 300 && upstream.response.envelope.Json?
            && (upstream.response.envelope.collectionDates.None? || upstream.response.envelope.collectionDates.value == "") ==>
              r == Failure(NoData)
  {
    match Credentials(citizen, portal)
    case Failure(m) => Failure(m)
    case Success(_) =>
      match upstream
      case Transport(m) => Failure(RequestPrefix + m)
      case Reply(u) =>
        if u.status < 200 || u.status >= 300 then
          var e := StatusPrefix + StatusText(u.status);
          assert e[..|StatusPrefix|] == StatusPrefix;
          Failure(e)
        else
          match u.envelope
          case BadJson(m) => Failure(ParseErrorPrefix + m)
          case Json(html, sections) =>
            if html.None? || html.value == "" then Failure(NoData)
            else ExtractSchedule(sections, nowMs)
  }

  /** A reply outside 2xx fails with its own status code, whatever its body. */
  lemma NonSuccessStatus(citizen: Exchange<Option<string>>, portal: Exchange<string>,
                         u: Upstream, nowMs: int)
    requires Credentials(citizen, portal).Success?
    requires 0 <= u.status && !(200 <= u.status < 300)
    ensures CallService(citizen, portal, Reply(u), nowMs).Failure?
    ensures StatusOf(CallService(citizen, portal, Reply(u), nowMs).error) == Some(u.status)
  {
    StatusMessageRoundTrip(u.status);
  }

  // ---------------------------------------------------------------------------
  // The HTTP handler (index.js:215-249)
  // ---------------------------------------------------------------------------

  /** An incoming request: its HTTP verb, its URL's pathname and the first
      `uprn` query parameter if there is one. */
  datatype HttpRequest = HttpRequest(verb: string, pathname: string, uprn: Option<string>)

  /** The `message` of an error body: a string, the `{error: ...}` object that
      `callService` hands over as `err`, or whatever `binInfo.error` holds. */
  datatype Message = Plain(text: string) | ErrorObject(error: string) | FieldValue(field: Field)

  /** Response bodies: `{status: 'ok'}`, `{state: 'ok', ...binInfo}`,
      `{state: 'error', message}` and plain text. */
  datatype Body = HealthBody | BinsBody(info: BinInfo) | ErrorBody(message: Message) | TextBody(text: string)

  datatype HttpResponse = HttpResponse(status: int, contentType: string, body: Body)

  const JsonContentType: string := "application/json"
  const NotFound: string := "No bin information found"
  const BadRequest: string := "Bad Request: Missing uprn parameter"

  /** What `callService` passes to its callback: an error object, or a result
      that may be absent. */
  datatype Completion = Err(error: string) | Done(info: Option<BinInfo>)

  function Completed(r: Result<BinInfo>): Completion {
    match r
    case Failure(e) => Err(e)
    case Success(info) => Done(Some(info))
  }

  /** JavaScript truthiness of a property value. */
  predicate Truthy(f: Field) {
    match f
    case Status(s) => s != ""
    case Record(_) => true
  }

  /** The callback of the bin route: an error gives 500 with the error object
      as message; a result with a truthy `error` property gives 500 with that
      value; an absent or empty result gives 404; anything else gives 200
      with `state: 'ok'` spread under the result's properties. */
  function Respond(c: Completion): (r: HttpResponse)
    ensures r.contentType == JsonContentType
    ensures r.status == 500 <==> c.Err? || (c.info.Some? && "error" in c.info.value && Truthy(c.info.value["error"]))
    ensures r.status == 404 <==> c.Done? && (c.info.None? || |c.info.value.Keys| == 0)
    ensures r.status == 200 <==> c.Done? && c.info.Some? && |c.info.value.Keys| > 0
                                 && !("error" in c.info.value && Truthy(c.info.value["error"]))
    ensures r.status == 200 ==> && r.body.BinsBody?
                                && r.body.info.Keys == c.info.value.Keys + {"state"}
                                && (forall k :: k in c.info.value ==> r.body.info[k] == c.info.value[k])
                                && ("state" !in c.info.value ==> r.body.info["state"] == Status("ok"))
    ensures c.Err? ==> r.body == ErrorBody(ErrorObject(c.error))
    ensures c.Done? && c.info.Some? && "error" in c.info.value && Truthy(c.info.value["error"]) ==>
              r.body == ErrorBody(FieldValue(c.info.value["error"]))
    ensures r.status == 404 ==> r.body == ErrorBody(Plain(NotFound))
  {
    match c
    case Err(e) => HttpResponse(500, JsonContentType, ErrorBody(ErrorObject(e)))
    case Done(info) =>
      if info.Some? && "error" in info.value && Truthy(info.value["error"]) then
        HttpResponse(500, JsonContentType, ErrorBody(FieldValue(info.value["error"])))
      else if info.None? || |info.value.Keys| == 0 then
        HttpResponse(404, JsonContentType, ErrorBody(Plain(NotFound)))
      else
        HttpResponse(200, JsonContentType, BinsBody(map["state" := Status("ok")] + info.value))
  }

  /** The health route: GET on `/health`. */
  predicate IsHealth(q: HttpRequest) {
    q.pathname == "/health" && q.verb == "GET"
  }

  /** The bin route: GET on a path starting with `/bin-collection`, with a
      non-empty `uprn`. */
  predicate IsBinRoute(q: HttpRequest) {
    StartsWith(q.pathname, "/bin-collection") && q.verb == "GET" && q.uprn.Some? && q.uprn.value != ""
  }

  /** The request handler: health check, bin lookup through `callService`, or
      400 for anything else. */
  function Handle(q: HttpRequest, citizen: Exchange<Option<string>>, portal: Exchange<string>,
                  upstream: Exchange<Upstream>, nowMs: int): (r: HttpResponse)
    ensures IsHealth(q) ==> r == HttpResponse(200, JsonContentType, HealthBody)
    ensures !IsHealth(q) && !IsBinRoute(q) ==> r == HttpResponse(400, "text/plain", TextBody(BadRequest))
    ensures r.status == 400 <==> !IsHealth(q) && !IsBinRoute(q)
  {
    if IsHealth(q) then HttpResponse(200, JsonContentType, HealthBody)
    else if IsBinRoute(q) then Respond(Completed(CallService(citizen, portal, upstream, nowMs)))
    else HttpResponse(400, "text/plain", TextBody(BadRequest))
  }

  /** Spreading `state: 'ok'` under a well-formed result changes nothing. */
  lemma SpreadKeepsInfo(info: BinInfo)
    requires WellFormed(info)
    ensures map["state" := Status("ok")] + info == info
  {
  }

  /** The bin route's callback answers a `callService` outcome that is a
      failure or a well-formed schedule with 200 and exactly the schedule, or
      500 and the failure message; the 404 branch and the `binInfo.error`
      branch are never taken. */
  lemma RespondOutcome(s: Result<BinInfo>)
    requires s.Success? ==> WellFormed(s.value)
    ensures var r := Respond(Completed(s));
            && (r.status == 200 || r.status == 500)
            && (r.status == 200 <==> s.Success?)
            && (s.Success? ==> r.body == BinsBody(s.value))
            && (s.Failure? ==> r.body == ErrorBody(ErrorObject(s.error)))
  {
    if s.Success? {
      KeyCount(s.value);
      SpreadKeepsInfo(s.value);
      assert "error" !in s.value by {
        assert "error" !in AllKeys;
      }
    }
  }

  /** A bin request is answered 200 with exactly the extracted schedule or 500
      with the failure message; the 404 branch and the `binInfo.error` branch
      are never taken. */
  lemma BinRouteOutcome(q: HttpRequest, citizen: Exchange<Option<string>>, portal: Exchange<string>,
                        upstream: Exchange<Upstream>, nowMs: int)
    requires IsBinRoute(q) && !IsHealth(q)
    ensures var r := Handle(q, citizen, portal, upstream, nowMs);
            var s := CallService(citizen, portal, upstream, nowMs);
            && (r.status == 200 || r.status == 500)
            && (r.status == 200 <==> s.Success?)
            && (s.Success? ==> r.body == BinsBody(s.value))
            && (s.Failure? ==> r.body == ErrorBody(ErrorObject(s.error)))
  {
    RespondOutcome(CallService(citizen, portal, upstream, nowMs));
  }

  /** The health route never reaches the upstream service. */
  lemma HealthIndependent(q: HttpRequest, c1: Exchange<Option<string>>, p1: Exchange<string>,
                          u1: Exchange<Upstream>, c2: Exchange<Option<string>>, p2: Exchange<string>,
                          u2: Exchange<Upstream>, nowMs: int)
    requires IsHealth(q)
    ensures Handle(q, c1, p1, u1, nowMs) == Handle(q, c2, p2, u2, nowMs)
    ensures Handle(q, c1, p1, u1, nowMs).status == 200
  {
  }

  /** The bin route's API call asks for the caller's uprn over the window
      from today to 56 days later; when no call can be sent, the route
      answers 500 with the reason. */
  lemma BinRouteQuery(q: HttpRequest, citizen: Exchange<Option<string>>, portal: Exchange<string>,
                      upstream: Exchange<Upstream>, today: Date, nowMs: int)
    requires IsBinRoute(q) && !IsHealth(q) && ValidDate(today) && 1 <= today.year <= 9998
    ensures var o := Outgoing(citizen, portal, q.uprn.value, today);
            && (o.Failure? ==> Handle(q, citizen, portal, upstream, nowMs)
                                 == HttpResponse(500, JsonContentType, ErrorBody(ErrorObject(o.error))))
            && (o.Success? ==> && o.value.uprn == q.uprn.value
                               && ParseFormatted(o.value.startDate) == Some(today)
                               && ParseFormatted(o.value.endDate).Some?
                               && ValidDate(ParseFormatted(o.value.endDate).value)
                               && DayNumber(ParseFormatted(o.value.endDate).value) == DayNumber(today) + WindowDays)
  {
    var o := Outgoing(citizen, portal, q.uprn.value, today);
    if o.Success? {
      WindowSpan(q.uprn.value, Credentials(citizen, portal).value, today);
    }
  }
}

=== FILE: session.dfy ===
/** Session set-up with the council's form service (index.js:9-75): the
    Authorization header of the citizen call and the CSRF token scraped from
    the portal page. */
module Session {
  import opened Wrappers
  import opened Text

  // ---------------------------------------------------------------------------
  // CSRF token extraction (index.js:54-61)
  // ---------------------------------------------------------------------------

  /** The fixed text in front of the token in the pattern
      `<meta name="_csrf_token" content="([^"]+)"`. */
  const MetaPrefix: string := "<meta name=\"_csrf_token\" content=\""

  const Quote: char := '"'

  /** The pattern matches at index `i` of `page` with capture `token`: the
      prefix, then one or more non-quote characters, then a quote. */
  ghost predicate TokenAt(page: string, i: int, token: string) {
    && OccursAt(page, MetaPrefix, i)
    && |token| >= 1
    && (forall k :: 0 <= k < |token| ==> token[k] != Quote)
    && OccursAt(page, token + [Quote], i + |MetaPrefix|)
  }

  /** The pattern does not match at index `i`. */
  ghost predicate NoTokenAt(page: string, i: int) {
    forall token :: !TokenAt(page, i, token)
  }

  /** Length of the run of non-quote characters starting at `p`. */
  function QuoteFreeRun(s: string, p: nat): (n: nat)
    requires p <= |s|
    ensures p + n <= |s|
    ensures forall k :: p <= k < p + n ==> s[k] != Quote
    ensures p + n == |s| || s[p + n] == Quote
    decreases |s| - p
  {
    if p == |s| || s[p] == Quote then 0 else 1 + QuoteFreeRun(s, p + 1)
  }

  /** The capture at index `i` when the pattern matches there. */
  function CaptureAt(page: string, i: nat): (r: Option<string>)
    requires i <= |page|
    ensures r.Some? ==> TokenAt(page, i, r.value)
    ensures r.None? ==> NoTokenAt(page, i)
  {
    var j := i + |MetaPrefix|;
    if j <= |page| && page[i..j] == MetaPrefix then
      var n := QuoteFreeRun(page, j);
      if n >= 1 && j + n < |page| then
        var token := page[j..j + n];
        assert (token + [Quote]) == page[j..j + n + 1];
        Some(token)
      else
        RunBlocks(page, i, n);
        None
    else
      None
  }

  /** Where the prefix occurs but the run after it is empty or unterminated,
      no capture fits. */
  lemma RunBlocks(page: string, i: nat, n: nat)
    requires OccursAt(page, MetaPrefix, i)
    requires n == QuoteFreeRun(page, i + |MetaPrefix|)
    requires n == 0 || i + |MetaPrefix| + n == |page|
    ensures NoTokenAt(page, i)
  {
    forall token | TokenAt(page, i, token)
      ensures false
    {
      RunOfToken(page, i, token);
    }
  }

  /** The run of non-quote characters ending at a quote is exactly `n` long. */
  lemma {:induction false} RunExact(s: string, p: nat, n: nat)
    requires p + n < |s| && s[p + n] == Quote
    requires forall k :: p <= k < p + n ==> s[k] != Quote
    ensures QuoteFreeRun(s, p) == n
    decreases n
  {
    if n > 0 {
      RunExact(s, p + 1, n - 1);
    }
  }

  /** A capture is the whole run of non-quote characters after the prefix,
      and a quote follows it. */
  lemma RunOfToken(page: string, i: int, token: string)
    requires TokenAt(page, i, token)
    ensures QuoteFreeRun(page, i + |MetaPrefix|) == |token|
    ensures i + |MetaPrefix| + |token| < |page|
    ensures page[i + |MetaPrefix|..i + |MetaPrefix| + |token|] == token
  {
    var j := i + |MetaPrefix|;
    var t := |token|;
    assert page[j..j + t + 1] == token + [Quote];
    assert page[j + t] == (token + [Quote])[t];
    forall k | j <= k < j + t
      ensures page[k] != Quote
    {
      assert page[k] == (token + [Quote])[k - j];
    }
    RunExact(page, j, t);
    assert page[j..j + t] == (token + [Quote])[..t];
  }

  /** The leftmost index from `i` on where the pattern matches, with its capture. */
  function TokenFrom(page: string, i: nat): (r: Option<(nat, string)>)
    requires i <= |page|
    ensures r.Some? ==> i <= r.value.0 && TokenAt(page, r.value.0, r.value.1)
    ensures r.Some? ==> forall k :: i <= k < r.value.0 ==> NoTokenAt(page, k)
    ensures r.None? ==> forall k :: i <= k <= |page| ==> NoTokenAt(page, k)
    decreases |page| - i
  {
    match CaptureAt(page, i)
    case Some(token) => Some((i, token))
    case None =>
      if i == |page| then None else TokenFrom(page, i + 1)
  }

  /** `page.match(/<meta name="_csrf_token" content="([^"]+)"/)` and its first
      capture: the capture at the leftmost index where the whole pattern
      matches. It is never empty and never holds a quote, so the `!match[1]`
      test of index.js:55 adds nothing to `!match`. */
  function CsrfToken(page: string): (r: Option<string>)
    ensures r.Some? ==> exists i :: TokenAt(page, i, r.value) && forall k :: 0 <= k < i ==> NoTokenAt(page, k)
    ensures r.Some? ==> |r.value| >= 1 && Quote !in r.value
    ensures r.None? <==> forall k :: 0 <= k <= |page| ==> NoTokenAt(page, k)
  {
    match TokenFrom(page, 0)
    case None => None
    case Some((i, token)) =>
      assert TokenAt(page, i, token) && !NoTokenAt(page, i);
      Some(token)
  }

  /** At one index the pattern allows only one capture: the run of non-quote
      characters must end at the first quote. */
  lemma TokenUnique(page: string, i: int, t1: string, t2: string)
    requires TokenAt(page, i, t1) && TokenAt(page, i, t2)
    ensures t1 == t2
  {
    RunOfToken(page, i, t1);
    RunOfToken(page, i, t2);
  }

  /** A page that carries the meta tag with a non-empty, quote-free token and
      no earlier occurrence of the tag's prefix yields that token. */
  lemma CsrfTokenOfTag(before: string, token: string, after: string)
    requires |token| >= 1 && forall k :: 0 <= k < |token| ==> token[k] != Quote
    requires forall k :: 0 <= k < |before| ==> !OccursAt(before + MetaPrefix + token + [Quote] + after, MetaPrefix, k)
    ensures CsrfToken(before + MetaPrefix + token + [Quote] + after) == Some(token)
  {
    var page := before + MetaPrefix + token + [Quote] + after;
    var i := |before|;
    assert page[i..i + |MetaPrefix|] == MetaPrefix;
    assert page[i + |MetaPrefix|..i + |MetaPrefix| + |token| + 1] == token + [Quote];
    assert TokenAt(page, i, token);
    var r := CsrfToken(page);
    assert !NoTokenAt(page, i);
    var j :| TokenAt(page, j, r.value) && forall k :: 0 <= k < j ==> NoTokenAt(page, k);
    assert OccursAt(page, MetaPrefix, j);
    assert i <= j <= i;
    TokenUnique(page, i, token, r.value);
  }

  // ---------------------------------------------------------------------------
  // getAuthToken (index.js:9-75)
  // ---------------------------------------------------------------------------

  /** The result of one HTTPS request: the request's `error` event with its
      message, or the completed response. */
  datatype Exchange<T> = Transport(message: string) | Reply(response: T)

  /** The credentials the later API call needs. */
  datatype Auth = Auth(csrfToken: string, authHeader: string)

  const NoAuthHeader: string := "No Authorization header from /api/citizen"
  const NoCsrfToken: string := "Could not extract CSRF token from portal"

  /** The citizen call, and the portal call it triggers: a transport error of
      either is passed on as it is; a missing or empty Authorization header
      and a portal page without the token fail with their own messages. The
      portal page is consulted only once a header has been obtained. */
  function GetAuthToken(citizen: Exchange<Option<string>>, portal: Exchange<string>): (r: Result<Auth>)
    ensures r.Success? <==>
              && citizen.Reply? && citizen.response.Some? && citizen.response.value != ""
              && portal.Reply? && CsrfToken(portal.response).Some?
    ensures r.Success? ==> r.value.authHeader == citizen.response.value
                           && r.value.csrfToken == CsrfToken(portal.response).value
    ensures citizen.Transport? ==> r == Failure(citizen.message)
    ensures citizen.Reply? && (citizen.response.None? || citizen.response.value == "") ==> r == Failure(NoAuthHeader)
    ensures citizen.Reply? && citizen.response.Some? && citizen.response.value != "" && portal.Transport? ==>
              r == Failure(portal.message)
    ensures citizen.Reply? && citizen.response.Some? && citizen.response.value != ""
            && portal.Reply? && CsrfToken(portal.response).None? ==>
              r == Failure(NoCsrfToken)
  {
    match citizen
    case Transport(m) => Failure(m)
    case Reply(header) =>
      if header.None? || header.value == "" then Failure(NoAuthHeader)
      else
        match portal
        case Transport(m) => Failure(m)
        case Reply(page) =>
          match CsrfToken(page)
          case None => Failure(NoCsrfToken)
          case Some(token) => Success(Auth(token, header.value))
  }

  /** Without a usable header the portal's answer makes no difference. */
  lemma PortalIgnoredWithoutHeader(citizen: Exchange<Option<string>>, p1: Exchange<string>, p2: Exchange<string>)
    requires citizen.Transport? || citizen.response.None? || citizen.response.value == ""
    ensures GetAuthToken(citizen, p1) == GetAuthToken(citizen, p2)
  {
  }
}

=== FILE: text.dfy ===
/** Character classes, substring search, trimming and decimal numerals, as the
    JavaScript built-ins used by the service (`String.prototype.includes`,
    `trim`, `replace(/\s+/g, '')`, number-to-string) behave. Strings are sequences of Unicode scalar values, so
    lone UTF-16 surrogates cannot occur in them. */
module Text {

  /** ECMAScript WhiteSpace and LineTerminator code points: the set matched by the
      regex class `\s` and removed by `String.prototype.trim`. */
  predicate IsSpace(c: char) {
    || c == '\t' || c == '\n' || c == '\U{000B}' || c == '\U{000C}' || c == '\r'
    || c == ' ' || c == '\U{00A0}' || c == '\U{1680}'
    || ('\U{2000}' <= c <= '\U{200A}')
    || c == '\U{2028}' || c == '\U{2029}' || c == '\U{202F}' || c == '\U{205F}'
    || c == '\U{3000}' || c == '\U{FEFF}'
  }

  /** The regex class `\d` (ASCII digits only). */
  predicate IsDigit(c: char) {
    '0' <= c <= '9'
  }

  /** The regex class `\w` without the `u` flag: ASCII letters, digits and underscore. */
  predicate IsWordChar(c: char) {
    ('a' <= c <= 'z') || ('A' <= c <= 'Z') || IsDigit(c) || c == '_'
  }

  ghost predicate AllSpace(s: string) {
    forall k :: 0 <= k < |s| ==> IsSpace(s[k])
  }

  ghost predicate NoSpace(s: string) {
    forall k :: 0 <= k < |s| ==> !IsSpace(s[k])
  }

  predicate AllDigits(s: string) {
    forall k :: 0 <= k < |s| ==> IsDigit(s[k])
  }

  predicate StartsWith(s: string, prefix: string) {
    |prefix| <= |s| && s[..|prefix|] == prefix
  }

  predicate EndsWith(s: string, suffix: string) {
    |suffix| <= |s| && s[|s| - |suffix|..] == suffix
  }

  // ---------------------------------------------------------------------------
  // Substring search (`String.prototype.includes`)
  // ---------------------------------------------------------------------------

  /** `p` occurs in `s` starting at index `i`. */
  ghost predicate OccursAt(s: string, p: string, i: int) {
    0 <= i && i + |p| <= |s| && s[i..i + |p|] == p
  }

  /** Whether `p` occurs in `s` at index `from` or later. */
  function ContainsFrom(s: string, p: string, from: nat): (r: bool)
    ensures r <==> exists k :: from <= k && OccursAt(s, p, k)
    decreases |s| - from
  {
    if from + |p| > |s| then false
    else if s[from..from + |p|] == p then
      assert OccursAt(s, p, from);
      true
    else
      var rest := ContainsFrom(s, p, from + 1);
      assert forall k :: from <= k && OccursAt(s, p, k) ==> k == from || from + 1 <= k;
      rest
  }

  /** `s.includes(p)`: case-sensitive substring test; the empty string occurs everywhere. */
  function Contains(s: string, p: string): (r: bool)
    ensures r <==> exists k :: OccursAt(s, p, k)
  {
    ContainsFrom(s, p, 0)
  }

  // ---------------------------------------------------------------------------
  // Trimming (`String.prototype.trim`)
  // ---------------------------------------------------------------------------

  /** Drops leading white space: the result is a suffix of `s` and starts with a
      non-space character unless it is empty. */
  function TrimStart(s: string): (r: string)
    ensures |r| <= |s| && r == s[|s| - |r|..]
    ensures forall k :: 0 <= k < |s| - |r| ==> IsSpace(s[k])
    ensures r == [] || !IsSpace(r[0])
  {
    if |s| > 0 && IsSpace(s[0]) then TrimStart(s[1..]) else s
  }

  /** Drops trailing white space: the result is a prefix of `s` and ends with a
      non-space character unless it is empty. */
  function TrimEnd(s: string): (r: string)
    ensures |r| <= |s| && r == s[..|r|]
    ensures forall k :: |r| <= k < |s| ==> IsSpace(s[k])
    ensures r == [] || !IsSpace(r[|r| - 1])
  {
    if |s| > 0 && IsSpace(s[|s| - 1]) then TrimEnd(s[..|s| - 1]) else s
  }

  /** `r` is `s` with only white space removed around it, starting at index `i`. */
  ghost predicate TrimmedAt(s: string, r: string, i: int) {
    && 0 <= i <= |s| - |r|
    && r == s[i..i + |r|]
    && (forall k :: 0 <= k < i ==> IsSpace(s[k]))
    && (forall k :: i + |r| <= k < |s| ==> IsSpace(s[k]))
  }

  /** `s.trim()`: the result is a slice of `s` with only white space around it,
      it neither starts nor ends with white space, and it is empty exactly when
      `s` is all white space. */
  function Trim(s: string): (r: string)
    ensures r == [] || (!IsSpace(r[0]) && !IsSpace(r[|r| - 1]))
    ensures exists i :: TrimmedAt(s, r, i)
    ensures r == [] <==> AllSpace(s)
  {
    TrimSlices(s);
    TrimEnd(TrimStart(s))
  }

  lemma TrimSlices(s: string)
    ensures TrimmedAt(s, TrimEnd(TrimStart(s)), |s| - |TrimStart(s)|)
  {
    var t := TrimStart(s);
    var r := TrimEnd(t);
    assert |t| <= |s| && t == s[|s| - |t|..];
    assert |r| <= |t| && r == t[..|r|];
    SliceOfSlice(s, t, r);
  }

  /** A prefix `r` of a suffix `t` of `s`, with only white space cut off. */
  lemma SliceOfSlice(s: string, t: string, r: string)
    requires |t| <= |s| && t == s[|s| - |t|..]
    requires forall k :: 0 <= k < |s| - |t| ==> IsSpace(s[k])
    requires |r| <= |t| && r == t[..|r|]
    requires forall k :: |r| <= k < |t| ==> IsSpace(t[k])
    ensures TrimmedAt(s, r, |s| - |t|)
  {
    var i := |s| - |t|;
    assert r == s[i..i + |r|];
    forall k | i + |r| <= k < |s|
      ensures IsSpace(s[k])
    {
      assert s[k] == t[k - i];
    }
  }

  /** A string with no white space at either end is its own trim. */
  lemma TrimUntouched(s: string)
    requires |s| > 0 && !IsSpace(s[0]) && !IsSpace(s[|s| - 1])
    ensures Trim(s) == s
  {
  }

  /** Trimming is idempotent. */
  lemma TrimIdempotent(s: string)
    ensures Trim(Trim(s)) == Trim(s)
  {
    var t := Trim(s);
    if t != [] {
      assert TrimStart(t) == t;
      assert TrimEnd(t) == t;
    }
  }

  // ---------------------------------------------------------------------------
  // White-space removal (`s.replace(/\s+/g, '')`)
  // ---------------------------------------------------------------------------

  /** Removes every white-space character, keeping the others in order. */
  function Strip(s: string): (r: string)
    ensures NoSpace(r)
    ensures |r| <= |s|
    ensures NoSpace(s) ==> r == s
    ensures forall k :: 0 <= k < |s| && !IsSpace(s[k]) ==> s[k] in r
    ensures forall c :: c in r ==> c in s
  {
    if |s| == 0 then []
    else
      var rest := Strip(s[1..]);
      assert forall k :: 1 <= k < |s| ==> s[k] == s[1..][k - 1];
      if IsSpace(s[0]) then rest else [s[0]] + rest
  }

  /** Stripping distributes over concatenation, so it removes white space
      wherever it occurs and keeps the other characters in their order. */
  lemma {:induction false} StripConcat(a: string, b: string)
    ensures Strip(a + b) == Strip(a) + Strip(b)
    decreases |a|
  {
    if |a| == 0 {
      assert a + b == b;
    } else {
      assert (a + b)[1..] == a[1..] + b;
      StripConcat(a[1..], b);
    }
  }

  /** Stripping is idempotent, and leaves a string unchanged exactly when it
      holds no white space. */
  lemma StripIdempotent(s: string)
    ensures Strip(Strip(s)) == Strip(s)
    ensures Strip(s) == s <==> NoSpace(s)
  {
  }

  // ---------------------------------------------------------------------------
  // Decimal numerals (template-literal interpolation of integers, date-fns
  // zero-padded fields)
  // ---------------------------------------------------------------------------

  function Pow10(k: nat): (r: nat)
    ensures r >= 1
  {
    if k == 0 then 1 else 10 * Pow10(k - 1)
  }

  function DigitChar(d: nat): (c: char)
    requires d < 10
    ensures IsDigit(c)
  {
    ('0' as int + d) as char
  }

  function DigitValue(c: char): (d: nat)
    requires IsDigit(c)
    ensures d < 10 && DigitChar(d) == c
  {
    c as int - '0' as int
  }

  /** The value of a string of decimal digits (most significant first). */
  function ParseDigits(s: string): nat
    requires AllDigits(s)
  {
    if |s| == 0 then 0 else 10 * ParseDigits(s[..|s| - 1]) + DigitValue(s[|s| - 1])
  }

  /** A numeral of k digits is below 10^k. */
  lemma {:induction false} ParseDigitsBound(s: string)
    requires AllDigits(s)
    ensures ParseDigits(s) < Pow10(|s|)
  {
    if |s| > 0 {
      ParseDigitsBound(s[..|s| - 1]);
    }
  }

  /** Decimal representation of `n` without leading zeros, as `String(n)` gives. */
  function NatToString(n: nat): (r: string)
    ensures |r| >= 1 && AllDigits(r)
    ensures |r| > 1 ==> r[0] != '0'
  {
    if n < 10 then [DigitChar(n)] else NatToString(n / 10) + [DigitChar(n % 10)]
  }

  /** Reading back a rendered number gives the number. */
  lemma {:induction false} NatToStringRoundTrip(n: nat)
    ensures ParseDigits(NatToString(n)) == n
  {
    if n >= 10 {
      var s := NatToString(n);
      assert s[..|s| - 1] == NatToString(n / 10);
      NatToStringRoundTrip(n / 10);
    }
  }

  /** A decimal numeral as `String(n)` writes it: at least one digit and no
      leading zero unless the numeral is "0" itself. */
  predicate Numeral(s: string) {
    |s| >= 1 && AllDigits(s) && (|s| > 1 ==> s[0] != '0')
  }

  /** A numeral of two or more digits stands for at least 10. */
  lemma {:induction false} NumeralAtLeastTen(s: string)
    requires Numeral(s) && |s| > 1
    ensures ParseDigits(s) >= 10
  {
    var init := s[..|s| - 1];
    assert init[0] == s[0];
    if |init| > 1 {
      NumeralAtLeastTen(init);
    } else {
      assert DigitValue(init[0]) >= 1;
    }
  }

  /** A numeral is the rendering of the number it stands for, so every number
      has exactly one numeral. */
  lemma {:induction false} NumeralUnique(s: string)
    requires Numeral(s)
    ensures s == NatToString(ParseDigits(s))
  {
    var n := ParseDigits(s);
    if |s| == 1 {
      assert s[..|s| - 1] == [];
      assert ParseDigits(s[..|s| - 1]) == 0;
      assert n == DigitValue(s[0]);
    } else {
      var init := s[..|s| - 1];
      assert init[0] == s[0];
      NumeralAtLeastTen(s);
      NumeralUnique(init);
      var d := DigitValue(s[|s| - 1]);
      assert n == 10 * ParseDigits(init) + d;
      assert n / 10 == ParseDigits(init) && n % 10 == d;
      assert s == init + [s[|s| - 1]];
    }
  }

  /** A number below 10^k takes at most k digits. */
  lemma {:induction false} NatToStringLength(n: nat, k: nat)
    requires k >= 1 && n < Pow10(k)
    ensures |NatToString(n)| <= k
  {
    if n >= 10 {
      NatToStringLength(n / 10, k - 1);
    }
  }

  /** A number of at least 10^k takes more than k digits. */
  lemma {:induction false} NatToStringLengthBelow(n: nat, k: nat)
    requires Pow10(k) <= n
    ensures |NatToString(n)| > k
  {
    if k > 0 {
      NatToStringLengthBelow(n / 10, k - 1);
    }
  }

  function Zeros(k: nat): (r: string)
    ensures |r| == k && AllDigits(r)
    ensures forall i :: 0 <= i < k ==> r[i] == '0'
  {
    if k == 0 then [] else ['0'] + Zeros(k - 1)
  }

  /** A leading zero does not change the value of a numeral. */
  lemma {:induction false} LeadingZero(t: string)
    requires AllDigits(t)
    ensures AllDigits(['0'] + t) && ParseDigits(['0'] + t) == ParseDigits(t)
    decreases |t|
  {
    if |t| > 0 {
      var u := ['0'] + t;
      assert u[..|u| - 1] == ['0'] + t[..|t| - 1];
      LeadingZero(t[..|t| - 1]);
    }
  }

  lemma {:induction false} LeadingZeros(k: nat, t: string)
    requires AllDigits(t)
    ensures ParseDigits(Zeros(k) + t) == ParseDigits(t)
  {
    if k > 0 {
      var u := Zeros(k - 1) + t;
      assert AllDigits(u);
      assert Zeros(k) + t == ['0'] + u;
      LeadingZeros(k - 1, t);
      LeadingZero(u);
    } else {
      assert Zeros(k) + t == t;
    }
  }

  /** `n` rendered with at least `width` digits, zero-padded on the left (the
      date-fns `dd`, `MM` and `yyyy` tokens). */
  function Pad(n: nat, width: nat): (r: string)
    ensures AllDigits(r)
    ensures |r| == if |NatToString(n)| < width then width else |NatToString(n)|
    ensures ParseDigits(r) == n
  {
    var t := NatToString(n);
    NatToStringRoundTrip(n);
    if |t| < width then
      LeadingZeros(width - |t|, t);
      Zeros(width - |t|) + t
    else t
  }

  /** A value below 10^width is padded to exactly `width` digits. */
  lemma PadWidth(n: nat, width: nat)
    requires width >= 1 && n < Pow10(width)
    ensures |Pad(n, width)| == width
  {
    NatToStringLength(n, width);
  }
}

=== FILE: wrappers.dfy ===
/** Optional values and results shared by the rest of the model. */
module Wrappers {

  /** A value that may be absent: JavaScript's `undefined`/`null` or a failed regex match. */
  datatype Option<+T> = None | Some(value: T)

  /** The outcome of a step that can fail with a human-readable message. */
  datatype Result<+R> = Success(value: R) | Failure(error: string)
}
